=== FILE: README.md ===
# pasang's deploy engine, modelled in Dafny

pasang publishes a source tree as a new release and then switches to it. The release
goes into a local directory or, over ssh/sftp, onto a remote host. Under the
destination it keeps `releases/<id>`, where `<id>` is the Unix time of the deployment
in decimal, plus a `current` symbolic link to the release in service. One run does the
following, stopping at the first error:

- checks the source;
- runs the "before" hooks;
- connects (remote only);
- makes `releases`;
- copies the source tree;
- runs the "after" hooks;
- deletes all but the newest `keep` releases;
- repoints `current`.

This project models that engine as pure functions over an immutable filesystem value
and proves properties of it. It covers:

- the older pair of orchestrators in command.go (`executeLocal(src, dest, keep)` and
  `executeSSH`);
- the newer pair in command_local.go and command_remote.go (`executeLocal(conf)` and
  `executeRemote(conf)`);
- the helpers they call: destination parsing, the recursive sftp copy, the recursive
  sftp delete, the pruning loop, the symlink switch and both hook runners;
- the part of `main` (main.go) that chooses between them.

The two orchestrator pairs declare the same Go names, so they cannot be built
together, and main.go calls the newer pair. The model keeps all four as variants of one
phase machine (`Deploy.Phases`).

Files, leaves first:

| file | module | contents |
|---|---|---|
| results.dfy | `Results` | `Option`, `Result`, `Outcome` |
| strings.dfy | `GoStrings` | `strings.Split` and `strings.Join`, Go's string `<`, `fmt.Sprintf("%d")` |
| sorting.dfy | `Sorting` | `sort.Strings`, sorted listings, the retention set `Retain` |
| filesystem.dfy | `FileSystem` | the destination as `map<Path, Inode>`, the primitive calls as `Op`, a fault oracle per side |
| destination.dfy | `Destination` | parsing `user@host[:port]:path` |
| copier.dfy | `Copier` | `copySFTP`, `dcopySFTP` and `fcopySFTP` |
| remover.dfy | `Remover` | `removeAllSFTP` |
| releases.dfy | `Releases` | `deleteOldReleases` and `deleteOldReleasesSFTP` |
| promotion.dfy | `Promotion` | `symlinkLocal` and `symlinkReleaseSFTP` |
| hooks.dfy | `Hooks` | `executeLocalCmd` and `executeRemoteCmd` |
| deploy.dfy | `Deploy` | the four orchestrators as phase lists, and what a run guarantees |
| entry.dfy | `Entry` | `main` after the configuration is decoded |
| scenarios.dfy | `Scenarios` | concrete instances of the general results |

A primitive call fails in two cases:

- the side's fault oracle says so (`Backend.fault`), which stands for disk, permission
  and network errors;
- the filesystem refuses it (`FileSystem.Permits`), for example a `Remove` of a
  non-empty directory or a `Create` under a file.

A call that fails changes nothing (see "## Left out" for the partial effects this
omits). A hook command succeeds or fails according to an oracle over the process or
session it starts. Each run has its own oracle for the first round of hooks and another
for the second. The local oracle sees only the directory, name and arguments of a
process, so two identical commands in one round succeed or fail together. The remote
oracle sees the position of each session and each command run in it, so the same
command listed twice can pass once and fail once (`Hooks.RepeatedCommandCanFail`).

Where the intended design and the code differ, the model follows the code, with one
exception. main.go:47-49 replaces only a `keep` of exactly 0 by the default, so a
negative `keep` reaches the pruning loop, which then reads past the end of its listing
(see "## Findings"). `Entry.Run` uses the corrected defaulting (`Entry.NormalizeKeep`),
so what it and `Entry.RunKeepsNewRelease` promise is about the corrected entry point.
The as-written behaviour is stated by `Entry.NegativeKeepPassesThrough` and
`Releases.NegativeKeepOverruns`. The model keeps these details as written:

- The "after" round of `executeLocal(conf)` runs the BEFORE commands a second time
  (command_local.go:39). `Deploy.LocalRunsBeforeTwice` states this, and
  `Deploy.LocalIgnoresAfterCommands` states that `after_run_cmd` is never read.
- The remote "after" hooks run in the ssh session's default directory. The new
  release's path only appears in a log line (command_remote.go:232).
  `Hooks.RemoteIgnoresDir` states this.
- `executeSSH` makes the remote `releases` directory before it looks at the source
  (command.go:103-112). `Deploy.LegacySshChecksSourceLate` states this.
- Release names order correctly only while the clock keeps the same number of decimal
  digits. `GoStrings.DecimalOrder` proves the equal-width case.
  `GoStrings.WidthChangeBreaksOrder` shows the order breaking once the width changes.
- The switch of `current` is a remove followed by a symlink. It is not atomic
  (`Promotion.PromoteNotAtomic`).

## Model

| member | source | states |
|---|---|---|
| GoStrings.SplitCount | command_remote.go:20-23 | `strings.Split` on a separator gives one piece more than the separator's occurrences, so "exactly two parts" means "exactly one `@`" |
| GoStrings.JoinSplit | command_remote.go:32 | joining the pieces of a split with the same separator restores the string |
| GoStrings.SplitJoin | command_remote.go:25 | splitting a join of separator-free pieces restores the pieces |
| GoStrings.BelowTotal | command_local.go:86 | Go's string `<` orders any two distinct strings one way or the other, so `sort.Strings` has one answer |
| GoStrings.BelowTransitive | command_local.go:86 | Go's string `<` is transitive |
| GoStrings.BelowCommonPrefix | command_local.go:83-86 | sorting the joined paths `dir/name` orders them as their names, because a shared prefix does not change the order |
| GoStrings.DecimalRoundTrip | command_local.go:34 | a release name rendered with `%d` reads back as the time it was made from |
| GoStrings.DecimalOrder | command_local.go:34 | release names of equal width compare as strings exactly as the times compare as numbers, in both directions, and are equal only for equal times |
| GoStrings.WidthChangeBreaksOrder | command_local.go:86 | once the width changes, string order disagrees with time order: `"10"` sorts before `"9"` |
| Sorting.Insert | command_local.go:86 | inserting into a sorted sequence keeps it sorted, adds exactly the element (as a multiset) and lengthens it by one |
| Sorting.Sort | command_local.go:86 | `sort.Strings` returns an ascending permutation of its input |
| Sorting.SortedUnique | command_local.go:86 | two ascending sequences with the same multiset are equal, so the sorted listing is determined by its contents |
| Sorting.SortDistinct | command_local.go:86 | sorting distinct names gives a strictly ascending sequence |
| Sorting.SetToSorted | command_local.go:78 | a directory's names, listed, are strictly ascending and hold exactly the directory's names |
| Sorting.RetainSuffix | command_local.go:86-92 | over an ascending listing, keeping `keep` releases keeps exactly its last `min(n, keep)` names |
| Sorting.RetainSize | command_local.go:87 | retention keeps `min(n, keep)` releases |
| Sorting.RetainIdempotent | command_local.go:87 | retaining twice with the same count keeps the same releases as retaining once |
| Sorting.RetainNewest | command_local.go:87 | adding a name above all others and retaining `keep >= 1` keeps the new name and the newest `keep - 1` others |
| FileSystem.ListDir | command_local.go:78 | a listing is strictly ascending and names exactly the entries of the directory |
| FileSystem.ApplyFrame | command_remote.go:58 | a call changes only the paths it affects; only the removals delete anything; `MkdirAll` keeps every existing entry as it was |
| FileSystem.RunOps | command_remote.go:129-148 | calls run in order and stop at the first failure, which is the last call made; a pass made every call, none of them faulted |
| FileSystem.RunOpsAppend | command_remote.go:159-169 | running two call lists back to back is running the first and, only if it passed, the second |
| Destination.ParseDest | command_remote.go:19-36 | every rejection carries "invalid dest value"; an accepted user has no `@` and an accepted directory no `:` |
| Destination.ParseRender | command.go:75-90 | every well-formed `user@host[:port]:dir` is accepted; the address is `host:port`, or `host:22` without a port |
| Destination.ParseSound | command_remote.go:20-36 | everything accepted is the rendering of its parsed user, host, optional port and directory |
| Destination.RejectAtCount | command_remote.go:20-23 | a destination with no `@`, or more than one, is rejected |
| Destination.RejectNoDirectory | command_remote.go:25-35 | `user@host` with no `:` after the `@` is rejected |
| Copier.Plan | command_remote.go:121-170 | the first call of a copy is `Create` for a file and `MkdirAll` for a directory |
| Copier.CopyTree | command_remote.go:121-127 | a copy only adds; it changes nothing outside the target and creates nothing but the target and the way to it; a passing copy of a well-formed tree leaves the target mirroring the source (file modes, bytes, names, directories as directories); a passing copy of a directory into a fresh target gives the target the source's mode locally and the server's default mode over sftp |
| Copier.CopyDirectory | command_remote.go:151-170 | the directory copy has the frame of `CopyTree`; when it passes the target is a mirror of the directory, and a fresh target has the mode `MkdirAll` gave it |
| Copier.CopyFile | command_remote.go:129-149 | a file copy touches only the target file and, when it passes, leaves it with the source's mode and bytes |
| Copier.FillFile | command_remote.go:136-148 | chmod, open and write touch only the target and, when they pass, leave the source's mode and bytes |
| Copier.CopyChildren | command_remote.go:159-168 | copying the entries changes nothing outside the entries' targets and creates only those and the way to them; when it passes on distinct, well-formed entries, each entry's target mirrors it |
| Copier.CopyTreePlan | command.go:166-215 | the recursive copy makes exactly the calls of its plan, in plan order, and stops at the first failure |
| Copier.CopyFilePlan | command.go:173-194 | a file copy is the calls create, chmod, open source, write, in that order |
| Copier.MirrorsStable | command_remote.go:159-168 | a copied entry stays mirrored while later entries are copied beside it |
| Remover.RemoveTree | command_remote.go:191-214 | the walk starts with `Stat`, only deletes, keeps everything outside the path, fails at once on a missing path, and when it passes nothing under the path is left and its last call removed the path |
| Remover.RemoveDir | command_remote.go:198-211 | the directory branch lists, deletes only under the path and, when it passes, ends by removing the path with nothing left under it |
| Remover.RemoveEach | command_remote.go:204-208 | the loop over the entries deletes only under the named entries and, when it passes, none of them is left |
| Remover.RemoveTreeComplete | command.go:236-259 | on a backend that never faults and a well-formed filesystem, the walk passes and deletes exactly what `os.RemoveAll` deletes |
| Remover.RemoveEachComplete | command.go:249-253 | on such a backend, removing distinct existing entries one by one passes and keeps the filesystem well formed |
| Releases.RemoveOne | command.go:61 | deleting one old release, by `os.RemoveAll` or the sftp walk, deletes only under it and, when it passes, removes it entirely |
| Releases.RemoveVictims | command_remote.go:182-187 | the deletion loop deletes only under the chosen releases and, when it passes, none of them is left |
| Releases.Prune | command_local.go:77-94 | pruning starts by listing the directory and only deletes; it never touches a release that retention keeps; when it passes exactly the newest `keep` releases remain; with at most `keep` releases nothing changes |
| Releases.ListingVictims | command.go:50-59 | the loop deletes the front of the sorted listing, all but its last `min(n, keep)` names |
| Releases.VictimsComplement | command_local.go:86-92 | a release is deleted exactly when it exists and retention does not keep it; with at most `keep` releases nothing is deleted |
| Releases.VictimsOldest | command_remote.go:181-184 | deletions run in ascending order, and every deleted release sorts below every kept one |
| Releases.PruneIdempotent | command.go:49-66 | after a prune that passed, a second prune with the same `keep` changes nothing, whichever deleter and backend it uses |
| Releases.PruneAbort | command_remote.go:182-186 | a prune that fails part-way has deleted every release before the failing one and left every later one untouched |
| Releases.LoopIndicesInRange | command.go:59 | with `keep >= 0` the loop reads exactly indices `0 .. n-keep-1`, all within the listing |
| Releases.LoopDeletesVictims | command_local.go:82-92 | with `keep >= 0` the loop as written deletes, in order, exactly the victims: its `k`-th index names the `k`-th victim of the sorted listing, and it reads as many indices as there are victims |
| Releases.NegativeKeepOverruns | command_local.go:87 | with a negative `keep` the loop reads every index and then index `n`, one past the end |
| Promotion.Promote | command_local.go:96-99 | the switch is a remove then a symlink; it passes exactly when the symlink can be made; a pass points `current` at the release; a failure leaves `current` as it was or gone; nothing else changes |
| Promotion.PromoteNotAtomic | command_remote.go:216-219 | when the symlink call fails after the remove went through, `current` is gone |
| Promotion.PromoteBlocked | command.go:68-71 | a non-empty real directory named `current` makes the switch fail without changing anything |
| Hooks.LocalCall | command_local.go:59-67 | a hook starts a process in the given directory |
| Hooks.LocalCallSplits | command_local.go:59-64 | the program and its arguments hold no space, and rejoined with spaces they give the command back |
| Hooks.RunLocal | command_local.go:55-75 | the local hooks pass exactly when every command's process succeeds; they run in list order, and a failure stops at the failing command, every earlier one having succeeded |
| Hooks.RunCalls | command_local.go:56-73 | calls run in order, stopping after the first that fails; a pass made them all |
| Hooks.ScheduleAt | command_remote.go:226-240 | each remote command gets its own session, opened just before it runs, in list order |
| Hooks.RunRemote | command_remote.go:221-243 | the remote hooks pass exactly when every session opens and every command succeeds; a failure stops at the failing call; an empty list passes at once |
| Hooks.RunSessions | command_remote.go:226-240 | the session loop from any command on has the same pass/stop behaviour |
| Hooks.RepeatedCommandCanFail | command_remote.go:226-237 | a command listed twice runs twice, each run in its own session; the second run can fail after the first passed, and the hooks then stop at it |
| Hooks.RemoteIgnoresDir | command_remote.go:232 | the directory given to the remote hooks makes no difference to what runs |
| Deploy.PathOfJoin | command.go:27 | a path of proper components survives `filepath.Join` with slashes and parsing back |
| Deploy.Perform | command_remote.go:38-81 | only the phases that make, copy, prune or switch change the destination; a phase adds exactly its own hook calls; a failing phase returns its variant's message for that phase |
| Deploy.RunFrom | command_local.go:18-53 | a run enters a prefix of its phases and all of them when it passes; it records exactly the hook calls of the phases entered; a run that entered no writing phase changed nothing; a failed run returns the fixed message of the phase it stopped in |
| Deploy.Execute | command_remote.go:19-83 | a run of any variant enters a prefix of that variant's phases, all of them when it passes, at least one when it fails; a failed run returns that variant's message for the phase it stopped in |
| Deploy.RunFromFailure | command_remote.go:38-82 | a failed run is a passing run of every phase before the one it stopped in, followed by that phase failing with the run's error and final state: the first failure returns and skips the rest |
| Deploy.RunFromHooksPass | command_local.go:24-41 | a run that passes passed every round of hooks it contains |
| Deploy.Layout | command.go:27-42 | `current` is beside `releases`, never on the way to it or to the new release, nor under it |
| Deploy.RunFromKeepsCurrent | command_local.go:18-47 | until the switch is entered, a run leaves `current` exactly as it was |
| Deploy.FailureKeepsCurrent | command_local.go:19-46 | a run that fails before the switch leaves `current` exactly as it was |
| Deploy.RunFromPromotes | command_local.go:48-51 | a passing run whose last phase is the switch leaves `current` linked to the new release |
| Deploy.SuccessPromotes | command_local.go:48-52 | after a successful deployment `current` is a link holding the path of the release it created |
| Deploy.PerformReleases | command_remote.go:64-76 | when a phase passes, the release names change as that phase's effect on names says |
| Deploy.CopiedRelease | command_local.go:34-37 | a successful copy adds exactly the new release to the releases directory |
| Deploy.PhasesOnReleases | command_local.go:28-46 | every variant makes the release, prunes, and touches the release names nowhere else |
| Deploy.SuccessRetains | command_local.go:43-52 | after a successful deployment the releases directory holds the newest `keep` of the old releases and the new one together |
| Deploy.RunRetains | command.go:32-45 | the same for any job run through any variant's phases |
| Deploy.SuccessKeepsNewest | command_local.go:34-52 | with `keep >= 1` and a new name above the old ones, a successful deployment keeps the new release and the newest `keep - 1` old ones, and `current` links to the path of the new release |
| Deploy.RunKeepsNewest | command.go:32-46 | for any job whose phases copy and then prune, a passing run keeps the new release and the newest `keep - 1` old ones (the link is not part of this one, since such phases need not switch `current`) |
| Deploy.EarlierReleasesBelow | command.go:32 | releases made earlier, while the clock had as many digits, sort below the new one |
| Deploy.LocalIgnoresAfterCommands | command_local.go:39 | `executeLocal(conf)` never reads the after commands |
| Deploy.LocalRunsBeforeTwice | command_local.go:24-41 | a successful `executeLocal(conf)` runs the before commands, in order, twice, and nothing else |
| Deploy.LocalRounds | command_local.go:24-41 | a successful local run passed both rounds and made exactly their calls |
| Deploy.BadDestStops | command_remote.go:20-36 | an unparsable destination stops the ssh variants at once: no hook, no connection, no change |
| Deploy.MissingSourceStops | command_local.go:19-22 | a missing source stops the local variants at once: no hook, no change |
| Deploy.LegacySshChecksSourceLate | command.go:92-112 | `executeSSH` with a missing source connects and makes the releases directory, then fails with "open src" |
| Deploy.BeforeHooksGate | command_remote.go:38-40 | failing before hooks stop the newer variants with their message, after exactly the hook calls made, with nothing written |
| Deploy.FirstWriteAt | command.go:21-30 | in every variant the first phase that writes is making the releases directory |
| Deploy.EarlyFailureWritesNothing | command.go:21-30 | a run that stops before making the releases directory leaves the destination unchanged |
| Deploy.AfterHooksFailureKeepsRelease | command_remote.go:64-71 | when the after hooks fail, the copied release stays, no old release is pruned, and `current` is untouched |
| Entry.Run | main.go:44-57 | `main`, with `keep` defaulted as corrected, stops with "can't find source file / folder" exactly when the source is missing; otherwise the chosen orchestrator enters a prefix of its phases, all of them on success |
| Entry.NormalizeKeep | main.go:47-49 | the count used is at least 1; it is the default for zero, as main.go does, and for negatives as well |
| Entry.NegativeKeepPassesThrough | main.go:47-49 | as written, a negative `keep` passes through the defaulting unchanged, and the pruning loop then reads one past the end |
| Entry.NormalizedKeepInRange | command_local.go:87 | with the normalised count the pruning loop reads exactly indices `0 .. n-keep-1`, all within the listing |
| Entry.RunKeepsNewRelease | main.go:47-57 | through the corrected entry point, for any configured `keep`, a successful deployment keeps the new release and the newest old ones, and `current` links to the new release's path |
| Scenarios.DestinationWithPort | command_remote.go:31-33 | `deploy@10.0.0.5:2222:/srv/app` parses to user `deploy`, address `10.0.0.5:2222`, directory `/srv/app` |
| Scenarios.DestinationDefaultPort | command_remote.go:28-30 | `deploy@example.org:/srv/app` dials `example.org:22` |
| Scenarios.KeepTwoOfThree | command_local.go:86-92 | releases `100`, `200`, `300` with `keep` 2 leave `200` and `300` |
| Scenarios.PruneTwoOfThree | command_local.go:77-94 | pruning a directory holding `100`, `200`, `300` with `keep` 2 starts by listing it, never deletes `200` or `300`, and when it succeeds leaves exactly those two |

## Left out

- Authentication and connection set-up. `createSSHClient` is not modelled: key reading,
  passphrases, passwords and host keys are outside the model. The outcomes of
  `ssh.Dial` and `sftp.NewClient` are two booleans of the environment.
- The `Close` calls deferred on clients, files and sessions, and any error they return.
  The Go code ignores those errors.
- Logging and console output (`log.Printf` and `fmt.Println`).
- The output captured from hook commands.
- Reading and decoding the JSON configuration file and the `-config` flag. `Entry.Run`
  receives the decoded configuration.
- The clock. `time.Now().Unix()` is the `now` field of the environment.
- The source tree is read as an unchanging snapshot (`Copier.Tree`). Failures to open or
  list it are primitive calls that can fault. Symbolic links in the source, and
  `os.Stat` following links, are not modelled.
- The local variants copy with `github.com/otiai10/copy`, which is not part of this
  model. They are modelled with the same walk as `copySFTP`, except that directories
  keep the source's mode.
- `os.RemoveAll` is a single primitive call that deletes a path and everything under
  it. Its internal walk is not modelled.
- An sftp server's `ReadDir` order is the server's own. The model lists names in
  ascending order, as `ioutil.ReadDir` does. The copy lists the local source, whose
  order is already ascending, and the prune sorts its listing. So only the
  `removeAllSFTP` walk (`Remover.RemoveDir`, `Remover.RemoveEach`) depends on this: on a
  real server, the order decides which entries a failing walk has already deleted.
- Paths are component lists. `filepath.Join` and `Clean` drop empty and `.`
  components. A `..` component is kept as an ordinary name and not resolved. Every path
  is read from the filesystem root, so a relative destination is treated as absolute.
- Error wrapping. The older orchestrators wrap errors with `werrors.Wrap`, and the model
  keeps only the wrapping words.
- Concurrency with other processes on the destination.
- Deploy.Execute: requires the source to be present for the `Remote` variant.
  command_remote.go:63 discards the error of `os.Stat`, so a missing source there would
  dereference a nil `FileInfo`. main.go:44-46 stops before that can happen, and
  `Entry.Run` models that check.
- Copier.CopyTree: the mirror property is stated only for well-formed trees, where no
  directory has two entries with the same name. A real directory cannot have two. It
  compares directories only as directories: the mode of a copied directory is stated
  only for the target itself, when it did not exist before, and not for the
  directories below it.
- Copier.FillFile: a failing write changes nothing. A failing `io.Copy`
  (command_remote.go:147, command.go:192) can leave part of the data in the file, and
  the model leaves the file as the create and chmod made it, empty.
- Copier.CopyDirectory: a failing `MkdirAll` changes nothing. A real `MkdirAll`
  (command_remote.go:152, command.go:197) that fails part way keeps the ancestors it
  has already created.
- Remover.RemoveTreeComplete: completeness is stated only for a backend that never
  faults and a filesystem where every entry's parent is a directory. Otherwise only the
  frame properties of `Remover.RemoveTree` hold.
- Remover.RemoveEachComplete: stated under the same conditions as
  `Remover.RemoveTreeComplete`.
- Deploy.SuccessKeepsNewest: requires every old release to sort below the new one.
  `Deploy.EarlierReleasesBelow` gives this while the clock keeps its width, and
  `GoStrings.WidthChangeBreaksOrder` shows why it can fail afterwards.
- Entry.RunKeepsNewRelease: requires every old release to sort below the new one, for
  the same reason as `Deploy.SuccessKeepsNewest`. Its link to the new release is meant
  as `Deploy.SuccessPromotes` states it.
- Entry.Run: defaults a negative `keep` as well as a zero one. It is the corrected half
  of the main.go:47-49 finding. It does not compute what `main` does with a negative
  `keep`, which is deleting every release and then indexing past the listing.
- Deploy.SuccessPromotes: the link's content is the release's path read from the
  filesystem root. The Go code writes `filepath.Join(dest, "releases", id)` as the link
  text (command_local.go:34 and 48; command_remote.go:64 and 78). A relative link text is
  resolved from the link's own directory, so for a relative destination such as `app`
  the real `app/current` names `app/app/releases/<id>` and dangles. The promise holds as
  stated only for absolute destinations.
- Deploy.RunFrom: the hook phases have no effect on the destination tree. Real hook
  commands can change it: local hooks share the local filesystem, and remote hooks run
  on the destination host (command_remote.go:69 and 221-240). `Deploy.FailureKeepsCurrent`,
  `Deploy.RunFromKeepsCurrent`, `Deploy.SuccessRetains`, `Deploy.SuccessKeepsNewest`,
  `Deploy.AfterHooksFailureKeepsRelease` and the other run lemmas assume hook commands
  leave the destination alone.
- Remover.RemoveTree: a symbolic link on the destination is removed as a single entry.
  `client.Stat` in `removeAllSFTP` (command_remote.go:191-198) follows links. So on a
  real server, a link to a directory inside an old release has its target's contents
  deleted through it before the link itself is removed. In the model, the copy
  creates only files and directories, and `current` lies outside `releases`. So a link
  inside a release can come only from outside the engine.
- FileSystem.Permits: the model resolves no symbolic links on the destination. A
  `MkdirAll` needs every existing path on the way to be a directory, and a `Create` or
  `Symlink` needs its parent to be one. So a destination that is itself a link, such as
  `/srv/app -> /data/app`, fails at making the releases directory in the model, while
  `os.MkdirAll` (command_local.go:29) and sftp's `MkdirAll` (command_remote.go:58)
  follow the link and go on.
- Hooks.RunLocal: the local oracle is a function of the process started (directory,
  program and arguments) alone. So a command listed twice in one round, or the before
  commands that `executeLocal(conf)` runs a second time, give the same result each
  time. A real command that is not idempotent can pass once and fail the next time.

## Findings

| source | as written | input that shows it | evidently intended | confidence | as-written member | corrected member |
|---|---|---|---|---|---|---|
| main.go:47-49 | only a `keep` of exactly 0 is replaced by the default. A negative `keep` reaches `for i := 0; len(dirs) > keep+i; i++` (command_local.go:87), which deletes every release, the new one included, and then reads `dirs[len(dirs)]`, one past the end | `"keep": -1` in `pasang.json`, with any number of releases | a non-positive `keep` falls back to the default, and the loop never deletes the new release or reads past the listing | high for the index past the end, by the loop condition; not executed | Entry.NegativeKeepPassesThrough | Entry.NormalizeKeep |

=== FILE: copier.dfy ===
/** The recursive copy of the source tree into a new release: `copySFTP`, `dcopySFTP` and
    `fcopySFTP` (command.go, command_remote.go). The local variants use a copy library
    with the same walk; they differ only in giving each created directory the source's
    permission bits (`keepDirMode`), where sftp's `MkdirAll` sends none.

    The walk is pre-order. A directory is created (with its missing ancestors), its
    source listing is read, and its entries are copied in listing order. A file is
    created, chmod-ed to the source mode, its source opened, and its bytes written. The
    first failing call aborts the whole copy, and whatever was already written stays. */
module Copier {
  import opened Results
  import opened FileSystem

  /** A source tree as `os.Stat` / `ioutil.ReadDir` present it: a directory's entries in
      listing order. */
  datatype Tree =
    | Regular(mode: Mode, data: seq<byte>)
    | Directory(mode: Mode, children: seq<Child>)

  datatype Child = Child(name: string, tree: Tree)

  function Names(cs: seq<Child>): set<string>
  {
    set i | 0 <= i < |cs| :: cs[i].name
  }

  /** No two entries of any directory share a name, as in any real directory. */
  predicate WellFormed(t: Tree)
    decreases t
  {
    match t
    case Regular(_, _) => true
    case Directory(_, cs) =>
      && (forall i, j :: 0 <= i < j < |cs| ==> cs[i].name != cs[j].name)
      && (forall i :: 0 <= i < |cs| ==> WellFormed(cs[i].tree))
  }

  /** `t` is present at `p`: every file with its mode and bytes, every directory as a
      directory. */
  predicate Mirrors(fs: FS, p: Path, t: Tree)
    decreases t
  {
    match t
    case Regular(m, data) => p in fs && fs[p] == File(m, data)
    case Directory(_, cs) =>
      && p in fs && fs[p].Dir?
      && (forall i :: 0 <= i < |cs| ==> Mirrors(fs, p + [cs[i].name], cs[i].tree))
  }

  /** Every path that existed and does not lie under `p` is still there, unchanged. */
  predicate KeepsOutside(fs: FS, fs': FS, p: Path)
  {
    forall k :: k in fs && !(p <= k) ==> k in fs' && fs'[k] == fs[k]
  }

  /** Every path that appeared lies on the way to `p` or under it. */
  predicate Confined(fs: FS, fs': FS, p: Path)
  {
    forall k :: k in fs' && k !in fs ==> k <= p || p <= k
  }

  /** `k` lies under the entry of `dir` called one of `names`. */
  predicate UnderEntry(k: Path, dir: Path, names: set<string>)
  {
    |k| > |dir| && k[..|dir|] == dir && k[|dir|] in names
  }

  /** The calls of the copy of `t` from `src` to `dest`, all of them, in order. */
  function Plan(src: Path, t: Tree, dest: Path, keepDirMode: bool): (ops: seq<Op>)
    ensures |ops| > 0 && ops[0] == (if t.Regular? then Create(dest) else MkdirAll(dest, DirPerm(t, keepDirMode)))
    decreases t
  {
    match t
    case Regular(m, data) => [Create(dest), Chmod(dest, m), OpenSource(src), Write(dest, data)]
    case Directory(_, cs) => [MkdirAll(dest, DirPerm(t, keepDirMode)), ReadSourceDir(src)] + PlanChildren(src, cs, dest, keepDirMode)
  }

  function PlanChildren(src: Path, cs: seq<Child>, dest: Path, keepDirMode: bool): seq<Op>
    decreases cs
  {
    if cs == [] then []
    else Plan(src + [cs[0].name], cs[0].tree, dest + [cs[0].name], keepDirMode)
         + PlanChildren(src, cs[1..], dest, keepDirMode)
  }

  /** The permission argument of the `MkdirAll` that creates a directory. */
  function DirPerm(t: Tree, keepDirMode: bool): Option<Mode>
  {
    if keepDirMode then Some(t.mode) else None
  }

  /** `copySFTP`: copy `t`, read from `src`, to `dest`. */
  function CopyTree(fs: FS, b: Backend, src: Path, t: Tree, dest: Path, keepDirMode: bool): (e: Effect)
    ensures Coherent(e)
    ensures fs.Keys <= e.fs.Keys
    ensures KeepsOutside(fs, e.fs, dest)
    ensures Confined(fs, e.fs, dest)
    ensures e.status.Pass? ==> dest in e.fs
    ensures e.status.Pass? && WellFormed(t) ==> Mirrors(e.fs, dest, t)
    ensures e.status.Pass? && t.Directory? && dest !in fs ==>
      e.fs[dest] == Dir(if keepDirMode then t.mode else b.dirMode)
    decreases t, 0
  {
    match t
    case Regular(m, data) =>
      var e := CopyFile(fs, b, src, m, data, dest);
      FileFrame(fs, e.fs, dest);
      e
    case Directory(m, cs) => CopyDirectory(fs, b, src, m, cs, dest, keepDirMode)
  }

  /** `dcopySFTP`: create the directory, read the source listing, copy the entries. */
  function CopyDirectory(fs: FS, b: Backend, src: Path, m: Mode, cs: seq<Child>, dest: Path, keepDirMode: bool): (e: Effect)
    ensures Coherent(e)
    ensures fs.Keys <= e.fs.Keys
    ensures KeepsOutside(fs, e.fs, dest)
    ensures Confined(fs, e.fs, dest)
    ensures e.status.Pass? ==> dest in e.fs
    ensures e.status.Pass? && WellFormed(Directory(m, cs)) ==> Mirrors(e.fs, dest, Directory(m, cs))
    ensures e.status.Pass? && dest !in fs ==> e.fs[dest] == Dir(if keepDirMode then m else b.dirMode)
    decreases cs, 1
  {
    var mkOp := MkdirAll(dest, DirPerm(Directory(m, cs), keepDirMode));
    var mk := Apply(fs, b, mkOp);
    if mk.status.Fail? then mk
    else
      var rd := Apply(mk.fs, b, ReadSourceDir(src));
      if rd.status.Fail? then Then(mk, rd)
      else
        var rest := CopyChildren(rd.fs, b, src, cs, dest, keepDirMode);
        DirectoryStep(fs, b, mkOp, rest.fs, cs, dest);
        Then(mk, Then(rd, rest))
  }

  /** The frame of a directory's copy: its `MkdirAll` adds the missing directories on the
      way to `dest`, and its entries' copies keep to the entries of `dest`. */
  lemma DirectoryStep(fs: FS, b: Backend, mkOp: Op, f3: FS, cs: seq<Child>, dest: Path)
    requires mkOp.MkdirAll? && mkOp.path == dest
    requires Apply(fs, b, mkOp).status.Pass?
    requires Apply(fs, b, mkOp).fs.Keys <= f3.Keys
    requires forall k :: k in Apply(fs, b, mkOp).fs && !UnderEntry(k, dest, Names(cs)) ==> k in f3 && f3[k] == Apply(fs, b, mkOp).fs[k]
    requires forall k :: k in f3 && k !in Apply(fs, b, mkOp).fs ==> k <= dest || UnderEntry(k, dest, Names(cs))
    ensures fs.Keys <= f3.Keys
    ensures KeepsOutside(fs, f3, dest)
    ensures Confined(fs, f3, dest)
    ensures dest in f3 && f3[dest].Dir?
    ensures dest !in fs ==> f3[dest] == Dir(match mkOp.perm case Some(m) => m case None => b.dirMode)
  {
    var f1 := Apply(fs, b, mkOp).fs;
    ApplyFrame(fs, b, mkOp);
    forall k | k in f1 && k !in fs ensures k <= dest {
      PrefixesAre(dest, k);
    }
    PrefixesAre(dest, dest);
    assert dest in f1 && f1[dest].Dir?;
    assert !UnderEntry(dest, dest, Names(cs));
    forall k | k in fs && !(dest <= k) ensures k in f3 && f3[k] == fs[k] {
      assert !UnderEntry(k, dest, Names(cs));
    }
    forall k | k in f3 && k !in fs ensures k <= dest || dest <= k {
      if k !in f1 {
        assert k <= dest || UnderEntry(k, dest, Names(cs));
        if UnderEntry(k, dest, Names(cs)) {
          assert k[..|dest|] == dest;
        }
      }
    }
  }

  /** `fcopySFTP`: create, chmod, open the source, copy the bytes. */
  function CopyFile(fs: FS, b: Backend, src: Path, m: Mode, data: seq<byte>, dest: Path): (e: Effect)
    ensures Coherent(e)
    ensures fs.Keys <= e.fs.Keys
    ensures forall k :: k != dest ==> Untouched(fs, e.fs, k)
    ensures e.status.Pass? ==> dest in e.fs && e.fs[dest] == File(m, data)
  {
    var cr := Apply(fs, b, Create(dest));
    if cr.status.Fail? then cr
    else Then(cr, FillFile(cr.fs, b, src, m, data, dest))
  }

  /** The part of `fcopySFTP` after the create: chmod, open the source, copy the bytes. */
  function FillFile(fs: FS, b: Backend, src: Path, m: Mode, data: seq<byte>, dest: Path): (e: Effect)
    ensures Coherent(e)
    ensures fs.Keys <= e.fs.Keys
    ensures forall k :: k != dest ==> Untouched(fs, e.fs, k)
    ensures e.status.Pass? ==> dest in e.fs && e.fs[dest] == File(m, data)
  {
    var ch := Apply(fs, b, Chmod(dest, m));
    if ch.status.Fail? then ch
    else
      var op := Apply(ch.fs, b, OpenSource(src));
      if op.status.Fail? then Then(ch, op)
      else Then(ch, Then(op, Apply(op.fs, b, Write(dest, data))))
  }

  /** A file's copy touches nothing but the file. */
  lemma FileFrame(fs: FS, fs': FS, dest: Path)
    requires fs.Keys <= fs'.Keys
    requires forall k :: k != dest ==> Untouched(fs, fs', k)
    ensures KeepsOutside(fs, fs', dest)
    ensures Confined(fs, fs', dest)
  {
    forall k | k in fs && !(dest <= k) ensures k in fs' && fs'[k] == fs[k] {
      assert Untouched(fs, fs', k);
    }
    forall k | k in fs' && k !in fs ensures k <= dest || dest <= k {
      assert !Untouched(fs, fs', k);
    }
  }

  /** The loop of `dcopySFTP` over the entries of one directory. */
  function CopyChildren(fs: FS, b: Backend, src: Path, cs: seq<Child>, dest: Path, keepDirMode: bool): (e: Effect)
    ensures Coherent(e)
    ensures fs.Keys <= e.fs.Keys
    ensures forall k :: k in fs && !UnderEntry(k, dest, Names(cs)) ==> k in e.fs && e.fs[k] == fs[k]
    ensures forall k :: k in e.fs && k !in fs ==> k <= dest || UnderEntry(k, dest, Names(cs))
    ensures e.status.Pass? && (forall i, j :: 0 <= i < j < |cs| ==> cs[i].name != cs[j].name)
                           && (forall i :: 0 <= i < |cs| ==> WellFormed(cs[i].tree))
            ==> forall i :: 0 <= i < |cs| ==> Mirrors(e.fs, dest + [cs[i].name], cs[i].tree)
    decreases cs, 0
  {
    if cs == [] then Effect(Pass, fs, [])
    else
      var here := dest + [cs[0].name];
      var first := CopyTree(fs, b, src + [cs[0].name], cs[0].tree, here, keepDirMode);
      EntryFrame(fs, first.fs, cs, dest);
      if first.status.Fail? then first
      else
        var rest := CopyChildren(first.fs, b, src, cs[1..], dest, keepDirMode);
        EntriesFrame(fs, first.fs, rest.fs, cs, dest);
        EntriesMirror(first.fs, rest.fs, cs, dest, first.status.Pass? && rest.status.Pass?);
        Then(first, rest)
  }

  /** The names of the entries are the first one's and the rest's. */
  lemma NamesSplit(cs: seq<Child>)
    requires cs != []
    ensures Names(cs) == {cs[0].name} + Names(cs[1..])
  {
    forall n | n in Names(cs) ensures n in {cs[0].name} + Names(cs[1..]) {
      var i :| 0 <= i < |cs| && cs[i].name == n;
      if i > 0 {
        assert cs[1..][i - 1].name == n;
      }
    }
  }

  /** Copying the first entry keeps to the entries of `dest`, and to the way there. */
  lemma EntryFrame(fs: FS, f1: FS, cs: seq<Child>, dest: Path)
    requires cs != []
    requires KeepsOutside(fs, f1, dest + [cs[0].name])
    requires Confined(fs, f1, dest + [cs[0].name])
    ensures forall k :: k in fs && !UnderEntry(k, dest, Names(cs)) ==> k in f1 && f1[k] == fs[k]
    ensures forall k :: k in f1 && k !in fs ==> k <= dest || UnderEntry(k, dest, Names(cs))
  {
    var here := dest + [cs[0].name];
    NamesSplit(cs);
    forall k | k in f1 && k !in fs ensures k <= dest || UnderEntry(k, dest, Names(cs)) {
      if k <= here && |k| <= |dest| {
        assert k <= dest;
      } else if k <= here {
        assert k == here;
      } else {
        assert here <= k;
        assert k[..|dest|] == dest;
      }
    }
  }

  /** The frames of the first entry's copy and of the rest's compose. */
  lemma EntriesFrame(fs: FS, f1: FS, f2: FS, cs: seq<Child>, dest: Path)
    requires cs != []
    requires forall k :: k in fs && !UnderEntry(k, dest, Names(cs)) ==> k in f1 && f1[k] == fs[k]
    requires forall k :: k in f1 && k !in fs ==> k <= dest || UnderEntry(k, dest, Names(cs))
    requires forall k :: k in f1 && !UnderEntry(k, dest, Names(cs[1..])) ==> k in f2 && f2[k] == f1[k]
    requires forall k :: k in f2 && k !in f1 ==> k <= dest || UnderEntry(k, dest, Names(cs[1..]))
    ensures forall k :: k in fs && !UnderEntry(k, dest, Names(cs)) ==> k in f2 && f2[k] == fs[k]
    ensures forall k :: k in f2 && k !in fs ==> k <= dest || UnderEntry(k, dest, Names(cs))
  {
    NamesSplit(cs);
  }

  /** When the entry names are distinct, the later entries' copies leave the first
      entry's mirror alone. */
  lemma EntriesMirror(f1: FS, f2: FS, cs: seq<Child>, dest: Path, passed: bool)
    requires cs != []
    requires passed && WellFormed(cs[0].tree) ==> Mirrors(f1, dest + [cs[0].name], cs[0].tree)
    requires forall k :: k in f1 && !UnderEntry(k, dest, Names(cs[1..])) ==> k in f2 && f2[k] == f1[k]
    requires passed && (forall i, j :: 0 <= i < j < |cs[1..]| ==> cs[1..][i].name != cs[1..][j].name)
                    && (forall i :: 0 <= i < |cs[1..]| ==> WellFormed(cs[1..][i].tree))
             ==> forall i :: 0 <= i < |cs[1..]| ==> Mirrors(f2, dest + [cs[1..][i].name], cs[1..][i].tree)
    ensures passed && (forall i, j :: 0 <= i < j < |cs| ==> cs[i].name != cs[j].name)
                   && (forall i :: 0 <= i < |cs| ==> WellFormed(cs[i].tree))
            ==> forall i :: 0 <= i < |cs| ==> Mirrors(f2, dest + [cs[i].name], cs[i].tree)
  {
    if passed && (forall i, j :: 0 <= i < j < |cs| ==> cs[i].name != cs[j].name)
              && (forall i :: 0 <= i < |cs| ==> WellFormed(cs[i].tree)) {
      var here := dest + [cs[0].name];
      assert forall i :: 0 <= i < |cs[1..]| ==> cs[1..][i] == cs[i + 1];
      forall k | k in f1 && here <= k ensures k in f2 && f2[k] == f1[k] {
        assert k[..|dest|] == dest && k[|dest|] == cs[0].name;
      }
      MirrorsStable(f1, f2, here, cs[0].tree);
      forall i | 0 <= i < |cs| ensures Mirrors(f2, dest + [cs[i].name], cs[i].tree) {
        if i > 0 {
          assert cs[1..][i - 1] == cs[i];
        }
      }
    }
  }

  /** A mirror survives any change that leaves the paths under it alone. */
  lemma {:induction false} MirrorsStable(fs: FS, fs': FS, p: Path, t: Tree)
    requires Mirrors(fs, p, t)
    requires forall k :: k in fs && p <= k ==> k in fs' && fs'[k] == fs[k]
    ensures Mirrors(fs', p, t)
    decreases t
  {
    match t
    case Regular(_, _) =>
    case Directory(_, cs) =>
      forall i | 0 <= i < |cs| ensures Mirrors(fs', p + [cs[i].name], cs[i].tree) {
        var q := p + [cs[i].name];
        forall k | k in fs && q <= k ensures k in fs' && fs'[k] == fs[k] {
          assert p <= k by {
            assert k[..|p|] == q[..|p|] == p;
          }
        }
        MirrorsStable(fs, fs', q, cs[i].tree);
      }
  }

  /** The walk makes exactly the calls of the plan, stopping at the first failure: the
      recursive copy is the flat pre-order call list run until something fails. */
  lemma {:induction false} CopyTreePlan(fs: FS, b: Backend, src: Path, t: Tree, dest: Path, keepDirMode: bool)
    ensures CopyTree(fs, b, src, t, dest, keepDirMode) == RunOps(fs, b, Plan(src, t, dest, keepDirMode))
    decreases t
  {
    match t
    case Regular(m, data) =>
      CopyFilePlan(fs, b, src, m, data, dest);
    case Directory(_, cs) =>
      var mkOp := MkdirAll(dest, DirPerm(t, keepDirMode));
      var rest := PlanChildren(src, cs, dest, keepDirMode);
      assert Plan(src, t, dest, keepDirMode) == [mkOp] + ([ReadSourceDir(src)] + rest);
      RunOpsAppend(fs, b, [mkOp], [ReadSourceDir(src)] + rest);
      var mk := Apply(fs, b, mkOp);
      if mk.status.Pass? {
        RunOpsAppend(mk.fs, b, [ReadSourceDir(src)], rest);
        var rd := Apply(mk.fs, b, ReadSourceDir(src));
        if rd.status.Pass? {
          CopyChildrenPlan(rd.fs, b, src, cs, dest, keepDirMode);
        }
      }
  }

  lemma CopyFilePlan(fs: FS, b: Backend, src: Path, m: Mode, data: seq<byte>, dest: Path)
    ensures CopyFile(fs, b, src, m, data, dest) == RunOps(fs, b, [Create(dest), Chmod(dest, m), OpenSource(src), Write(dest, data)])
  {
    assert [Create(dest), Chmod(dest, m), OpenSource(src), Write(dest, data)]
        == [Create(dest)] + [Chmod(dest, m), OpenSource(src), Write(dest, data)];
    RunOpsCons(fs, b, Create(dest), [Chmod(dest, m), OpenSource(src), Write(dest, data)]);
    var cr := Apply(fs, b, Create(dest));
    if cr.status.Pass? {
      FillFilePlan(cr.fs, b, src, m, data, dest);
    }
  }

  lemma FillFilePlan(fs: FS, b: Backend, src: Path, m: Mode, data: seq<byte>, dest: Path)
    ensures FillFile(fs, b, src, m, data, dest) == RunOps(fs, b, [Chmod(dest, m), OpenSource(src), Write(dest, data)])
  {
    assert [Chmod(dest, m), OpenSource(src), Write(dest, data)]
        == [Chmod(dest, m)] + [OpenSource(src), Write(dest, data)];
    RunOpsCons(fs, b, Chmod(dest, m), [OpenSource(src), Write(dest, data)]);
    var ch := Apply(fs, b, Chmod(dest, m));
    if ch.status.Pass? {
      assert [OpenSource(src), Write(dest, data)] == [OpenSource(src)] + [Write(dest, data)];
      RunOpsCons(ch.fs, b, OpenSource(src), [Write(dest, data)]);
      var op := Apply(ch.fs, b, OpenSource(src));
      if op.status.Pass? {
        assert [Write(dest, data)] == [Write(dest, data)] + [];
        RunOpsCons(op.fs, b, Write(dest, data), []);
      }
    }
  }

  lemma {:induction false} CopyChildrenPlan(fs: FS, b: Backend, src: Path, cs: seq<Child>, dest: Path, keepDirMode: bool)
    ensures CopyChildren(fs, b, src, cs, dest, keepDirMode) == RunOps(fs, b, PlanChildren(src, cs, dest, keepDirMode))
    decreases cs
  {
    if cs != [] {
      var head := Plan(src + [cs[0].name], cs[0].tree, dest + [cs[0].name], keepDirMode);
      var tail := PlanChildren(src, cs[1..], dest, keepDirMode);
      CopyTreePlan(fs, b, src + [cs[0].name], cs[0].tree, dest + [cs[0].name], keepDirMode);
      RunOpsAppend(fs, b, head, tail);
      var first := RunOps(fs, b, head);
      if first.status.Pass? {
        CopyChildrenPlan(first.fs, b, src, cs[1..], dest, keepDirMode);
      }
    }
  }
}

=== FILE: deploy.dfy ===
/** The four deploy orchestrators, each a fixed sequence of phases that stops at the
    first failing one and returns its message:
    - `LegacyLocal`: `executeLocal(src, dest, keep)` of command.go;
    - `LegacySsh`: `executeSSH(src, dest, keep, auth)` of command.go;
    - `Local`: `executeLocal(conf)` of command_local.go;
    - `Remote`: `executeRemote(conf)` of command_remote.go.

    A deployment lays out, under a root directory, `releases/<id>` (one directory per
    release, `<id>` the Unix time of the deployment in decimal) and `current`, a symbolic
    link to the release in service. Two details of the code are kept as they are: the
    "after" hooks of `Local` run the BEFORE commands a second time, and the remote
    "after" hooks run in the session's default directory, not in the new release. */
module Deploy {
  import opened GoStrings
  import opened Sorting
  import opened Results
  import opened FileSystem
  import opened Destination
  import Copier
  import opened Remover
  import opened Releases
  import opened Promotion
  import opened Hooks

  datatype Variant = LegacyLocal | LegacySsh | Local | Remote

  datatype Phase =
    | ParsingDest        // split `user@host[:port]:path`
    | CheckingSource     // os.Stat(src)
    | BeforeHooks        // executeLocalCmd(conf.Source, conf.BeforeRunCmd)
    | Connecting         // ssh.Dial, then sftp.NewClient
    | PreparingReleases  // MkdirAll(<root>/releases)
    | Copying            // the source tree into <root>/releases/<id>
    | AfterHooks         // the second round of hooks
    | Pruning            // delete the old releases
    | Promoting          // point <root>/current at the new release

  /** The phases of each orchestrator, in the order the code runs them. */
  function Phases(v: Variant): seq<Phase>
  {
    match v
    case LegacyLocal => [CheckingSource, PreparingReleases, Copying, Pruning, Promoting]
    case LegacySsh => [ParsingDest, Connecting, PreparingReleases, CheckingSource, Copying, Pruning, Promoting]
    case Local => [CheckingSource, BeforeHooks, PreparingReleases, Copying, AfterHooks, Pruning, Promoting]
    case Remote => [ParsingDest, BeforeHooks, Connecting, PreparingReleases, Copying, AfterHooks, Pruning, Promoting]
  }

  /** The `config` of main.go, less the ssh credentials. */
  datatype Config = Config(
    source: string,
    dest: string,
    keep: int,
    beforeRunCmd: seq<string>,
    afterRunCmd: seq<string>)

  /** Everything a run depends on that is outside the model's control. */
  datatype Env = Env(
    src: Option<Copier.Tree>,     // the source as os.Stat / ioutil.ReadDir see it; None if missing
    fs: FS,                       // the destination machine's filesystem
    backend: Backend,             // which of its calls fail
    before: Invocation -> bool,   // which hook processes / sessions succeed in the first round
    after: Invocation -> bool,    // ... and in the second
    sshOk: bool,                  // ssh.Dial succeeds
    sftpOk: bool,                 // sftp.NewClient succeeds
    now: nat)                     // time.Now().Unix()

  /** How a run ended, the destination it left, the hook calls it made and the phases
      it entered. */
  datatype Report = Report(status: Outcome<string>, fs: FS, ran: seq<Invocation>, visited: seq<Phase>)

  /** The result of one phase. */
  datatype Step = Step(status: Outcome<string>, fs: FS, ran: seq<Invocation>)

  /** `filepath.Join` / `filepath.Clean` of a slash-separated path, as components: empty
      and `.` components vanish. Every path is read from the filesystem root, so a
      relative destination is treated as if it were absolute. */
  function PathOf(s: string): Path
  {
    Components(Split(s, '/'))
  }

  function Components(parts: seq<string>): (p: Path)
    ensures forall i :: 0 <= i < |p| ==> p[i] != "" && p[i] != "."
  {
    if parts == [] then []
    else if parts[0] == "" || parts[0] == "." then Components(parts[1..])
    else [parts[0]] + Components(parts[1..])
  }

  /** A path of proper components survives rendering with slashes and parsing back. */
  lemma PathOfJoin(p: Path)
    requires forall i :: 0 <= i < |p| ==> p[i] != "" && p[i] != "." && '/' !in p[i]
    ensures PathOf(Join(p, '/')) == p
  {
    if p == [] {
      assert Split("", '/') == [""];
    } else {
      SplitJoin(p, '/');
      ComponentsProper(p);
    }
  }

  lemma {:induction false} ComponentsProper(p: Path)
    requires forall i :: 0 <= i < |p| ==> p[i] != "" && p[i] != "."
    ensures Components(p) == p
  {
    if p != [] {
      ComponentsProper(p[1..]);
      assert [p[0]] + p[1..] == p;
    }
  }

  function IsLocal(v: Variant): bool
  {
    v.LegacyLocal? || v.Local?
  }

  /** The directory that holds `releases` and `current`: the destination itself for the
      local variants, the path part of `user@host[:port]:path` for the ssh ones. */
  function Root(v: Variant, conf: Config): Path
  {
    if IsLocal(v) then PathOf(conf.dest)
    else
      match ParseDest(conf.dest)
      case Ok(r) => PathOf(r.dir)
      case Err(_) => []
  }

  /** What an orchestrator settles before its first phase: where the releases go, the
      new release's name (`fmt.Sprintf("%d", time.Now().Unix())`), and what each round
      of hooks does. Hook commands are taken to leave the destination tree alone: the
      model gives them no effect on it, so their outcome can be settled in advance.
      They may in fact touch it (local hooks share the local filesystem, remote ones
      run on the destination host); what the run lemmas promise assumes they do not. */
  datatype Job = Job(
    variant: Variant,
    destOk: bool,           // the destination parses as `user@host[:port]:path`
    srcPath: Path,
    src: Option<Copier.Tree>,
    root: Path,
    id: string,
    keep: nat,
    before: HookRun,
    after: HookRun,
    backend: Backend,
    sshOk: bool,
    sftpOk: bool)

  function ReleasesDir(j: Job): Path
  {
    j.root + ["releases"]
  }

  function Target(j: Job): Path
  {
    ReleasesDir(j) + [j.id]
  }

  function Current(j: Job): Path
  {
    j.root + ["current"]
  }

  /** The second round of hooks. `Local` runs the BEFORE commands again, locally, in the
      source directory; `Remote` runs the after commands, one ssh session each. */
  function AfterRound(v: Variant, conf: Config, env: Env, target: Path): HookRun
  {
    if IsLocal(v) then RunLocal(conf.source, conf.beforeRunCmd, env.after)
    else RunRemote(Join(target, '/'), conf.afterRunCmd, env.after)
  }

  function Prepare(v: Variant, conf: Config, env: Env): (j: Job)
    requires conf.keep >= 0
  {
    var root := Root(v, conf);
    var id := Decimal(env.now);
    Job(v, ParseDest(conf.dest).Ok?, PathOf(conf.source), env.src, root, id, conf.keep,
        RunLocal(conf.source, conf.beforeRunCmd, env.before),
        AfterRound(v, conf, env, root + ["releases", id]),
        env.backend, env.sshOk, env.sftpOk)
  }

  /** The permission argument of the `MkdirAll` of the releases directory: the local
      variants pass the source's mode, sftp passes none. */
  function ReleasesPerm(j: Job): Option<Mode>
  {
    if IsLocal(j.variant) then
      match j.src
      case Some(t) => Some(t.mode)
      case None => None
    else None
  }

  /** The error each phase of each variant returns. The legacy variants wrap the
      underlying error with these words; the newer ones return them as they are. */
  function Message(v: Variant, ph: Phase): string
  {
    match v
    case LegacyLocal =>
      (match ph
       case CheckingSource => "open src"
       case PreparingReleases => "releases dir"
       case Copying => "local copy"
       case Pruning => "local old releases"
       case _ => "symlink local")
    case LegacySsh =>
      (match ph
       case ParsingDest => InvalidDest
       case Connecting => "ssh client"
       case PreparingReleases => "sftp releases dir"
       case CheckingSource => "open src"
       case Copying => "sftp copy"
       case Pruning => "old release sftp"
       case _ => "symlink sftp")
    case Local =>
      (match ph
       case CheckingSource => "can't find source file / folder"
       case BeforeHooks => "before run commands return non 0 exit code"
       case PreparingReleases => "failed to create release folder"
       case Copying => "failed copying source to release folder"
       case AfterHooks => "after run commands return non 0 exit code"
       case Pruning => "failed to deleted old release folders"
       case _ => "failed to link release folder")
    case Remote =>
      (match ph
       case ParsingDest => InvalidDest
       case BeforeHooks => "before run commands return non 0 exit code"
       case Connecting => "failed to create connection to remote machine"
       case PreparingReleases => "failed to create release folder in remote machine"
       case Copying => "failed to copy source files to remote machine"
       case AfterHooks => "executing after commands in remote machine returning non 0 exit code"
       case Pruning => "failed to remove old releases"
       case _ => "failed to link release folder")
  }

  /** The error when the ssh connection is up but the sftp client cannot start. */
  function SftpMessage(v: Variant): string
  {
    if v.LegacySsh? then "sftp client" else Message(v, Connecting)
  }

  function Verdict(passed: bool, msg: string): Outcome<string>
  {
    if passed then Pass else Fail(msg)
  }

  /** The phases that write to the destination. */
  predicate Writes(ph: Phase)
  {
    ph.PreparingReleases? || ph.Copying? || ph.Pruning? || ph.Promoting?
  }

  /** The hook calls a phase makes. */
  function HookRound(j: Job, ph: Phase): seq<Invocation>
  {
    match ph
    case BeforeHooks => j.before.ran
    case AfterHooks => j.after.ran
    case _ => []
  }

  /** The hook calls of a list of phases, in order. */
  function HooksOf(j: Job, phases: seq<Phase>): seq<Invocation>
    decreases |phases|
  {
    if phases == [] then [] else HookRound(j, phases[0]) + HooksOf(j, phases[1..])
  }

  lemma HooksOfCons(j: Job, ph: Phase, phases: seq<Phase>)
    ensures HooksOf(j, [ph] + phases) == HookRound(j, ph) + HooksOf(j, phases)
  {
    assert ([ph] + phases)[1..] == phases;
  }

  /** One phase of a job. */
  function Perform(j: Job, ph: Phase, fs: FS, ran: seq<Invocation>): (s: Step)
    ensures !Writes(ph) ==> s.fs == fs
    ensures s.ran == ran + HookRound(j, ph)
    ensures s.status.Fail? ==>
      s.status.error == Message(j.variant, ph) || (ph.Connecting? && s.status.error == SftpMessage(j.variant))
  {
    var v := j.variant;
    match ph
    case ParsingDest =>
      Step(Verdict(j.destOk, Message(v, ph)), fs, ran)
    case CheckingSource =>
      Step(Verdict(j.src.Some?, Message(v, ph)), fs, ran)
    case BeforeHooks =>
      Step(Verdict(j.before.status.Pass?, Message(v, ph)), fs, ran + j.before.ran)
    case Connecting =>
      if !j.sshOk then Step(Fail(Message(v, ph)), fs, ran)
      else Step(Verdict(j.sftpOk, SftpMessage(v)), fs, ran)
    case PreparingReleases =>
      var e := Apply(fs, j.backend, MkdirAll(ReleasesDir(j), ReleasesPerm(j)));
      Step(Verdict(e.status.Pass?, Message(v, ph)), e.fs, ran)
    case Copying =>
      (match j.src
       case None => Step(Fail(Message(v, ph)), fs, ran)
       case Some(t) =>
         var e := Copier.CopyTree(fs, j.backend, j.srcPath, t, Target(j), IsLocal(v));
         Step(Verdict(e.status.Pass?, Message(v, ph)), e.fs, ran))
    case AfterHooks =>
      Step(Verdict(j.after.status.Pass?, Message(v, ph)), fs, ran + j.after.ran)
    case Pruning =>
      var e := Prune(fs, j.backend, ReleasesDir(j), j.keep, if IsLocal(v) then LocalRemoveAll else SftpWalk);
      Step(Verdict(e.status.Pass?, Message(v, ph)), e.fs, ran)
    case Promoting =>
      var e := Promote(fs, j.backend, Current(j), Target(j));
      Step(Verdict(e.status.Pass?, Message(v, ph)), e.fs, ran)
  }

  /** The phases from `phases` on, stopping at the first that fails. */
  function RunFrom(j: Job, phases: seq<Phase>, fs: FS, ran: seq<Invocation>): (r: Report)
    ensures r.visited <= phases
    ensures r.status.Pass? ==> r.visited == phases
    ensures r.status.Fail? ==> |r.visited| > 0
    ensures r.ran == ran + HooksOf(j, r.visited)
    ensures (forall i :: 0 <= i < |r.visited| ==> !Writes(r.visited[i])) ==> r.fs == fs
    ensures r.status.Fail? ==>
      r.status.error == Message(j.variant, LastPhase(r))
      || (LastPhase(r).Connecting? && r.status.error == SftpMessage(j.variant))
    decreases |phases|
  {
    if phases == [] then Report(Pass, fs, ran, [])
    else
      var s := Perform(j, phases[0], fs, ran);
      if s.status.Fail? then
        HooksOfCons(j, phases[0], []);
        Prepend(phases[0], [], fs, s.fs, s.fs, ran, HookRound(j, phases[0]), []);
        Report(s.status, s.fs, s.ran, [phases[0]])
      else
        var r := RunFrom(j, phases[1..], s.fs, s.ran);
        HooksOfCons(j, phases[0], r.visited);
        Prepend(phases[0], r.visited, fs, s.fs, r.fs, ran, HookRound(j, phases[0]), HooksOf(j, r.visited));
        Report(r.status, r.fs, r.ran, [phases[0]] + r.visited)
  }

  /** A phase in front of the rest of a run: its hook calls come first, and the run
      writes only if one of its phases does. */
  lemma Prepend(ph: Phase, visited: seq<Phase>, fs: FS, sfs: FS, rfs: FS, ran: seq<Invocation>, h: seq<Invocation>, hs: seq<Invocation>)
    requires !Writes(ph) ==> sfs == fs
    requires (forall i :: 0 <= i < |visited| ==> !Writes(visited[i])) ==> rfs == sfs
    ensures (ran + h) + hs == ran + (h + hs)
    ensures (forall i :: 0 <= i < |visited| + 1 ==> !Writes(([ph] + visited)[i])) ==> rfs == fs
  {
    assert ([ph] + visited)[0] == ph;
    assert forall i :: 0 <= i < |visited| ==> ([ph] + visited)[i + 1] == visited[i];
  }

  /** One run of variant `v`. The remote orchestrator discards the error of its
      `os.Stat(conf.Source)` and would dereference a nil `FileInfo`; it is only ever
      called once main.go has found the source. A negative `keep` makes the pruning loop
      index past the end of its listing (see `Releases.NegativeKeepOverruns`). */
  function Execute(v: Variant, conf: Config, env: Env): (r: Report)
    requires conf.keep >= 0
    requires v.Remote? ==> env.src.Some?
    ensures r.visited <= Phases(v)
    ensures r.status.Pass? ==> r.visited == Phases(v)
    ensures r.status.Fail? ==> |r.visited| > 0
    ensures r.status.Fail? ==>
      r.status.error == Message(v, LastPhase(r))
      || (LastPhase(r).Connecting? && r.status.error == SftpMessage(v))
  {
    RunFrom(Prepare(v, conf, env), Phases(v), env.fs, [])
  }

  /** The phase a failed run stopped in. */
  function LastPhase(r: Report): Phase
    requires |r.visited| > 0
  {
    r.visited[|r.visited| - 1]
  }

  /** A failed run is a passing run of the phases before the last one it entered,
      followed by that phase failing: every earlier phase passed, and the run stopped
      where its first failure was. */
  lemma {:induction false} RunFromFailure(j: Job, phases: seq<Phase>, fs: FS, ran: seq<Invocation>)
    ensures FailedAfterPassing(j, phases, fs, ran)
    decreases |phases|
  {
    if phases != [] {
      var s := Perform(j, phases[0], fs, ran);
      if s.status.Pass? {
        RunFromFailure(j, phases[1..], s.fs, s.ran);
        FailureAfterPass(j, phases, fs, ran);
      } else {
        FailureFirst(j, phases, fs, ran);
      }
    }
  }

  /** The statement of `RunFromFailure`. */
  predicate FailedAfterPassing(j: Job, phases: seq<Phase>, fs: FS, ran: seq<Invocation>)
  {
    var r := RunFrom(j, phases, fs, ran);
    r.status.Fail? ==>
      var pre := RunFrom(j, r.visited[..|r.visited| - 1], fs, ran);
      && pre.status.Pass?
      && Perform(j, LastPhase(r), pre.fs, pre.ran) == Step(r.status, r.fs, r.ran)
  }

  /** The case of `RunFromFailure` where the first phase fails. */
  lemma FailureFirst(j: Job, phases: seq<Phase>, fs: FS, ran: seq<Invocation>)
    requires phases != [] && Perform(j, phases[0], fs, ran).status.Fail?
    ensures FailedAfterPassing(j, phases, fs, ran)
  {
    RunFromCons(j, phases, fs, ran);
    assert RunFrom(j, phases, fs, ran).visited[..0] == [];
  }

  /** The case of `RunFromFailure` where the first phase passes. */
  lemma FailureAfterPass(j: Job, phases: seq<Phase>, fs: FS, ran: seq<Invocation>)
    requires phases != [] && Perform(j, phases[0], fs, ran).status.Pass?
    requires var s := Perform(j, phases[0], fs, ran);
      FailedAfterPassing(j, phases[1..], s.fs, s.ran)
    ensures FailedAfterPassing(j, phases, fs, ran)
  {
    var s := Perform(j, phases[0], fs, ran);
    var rest := RunFrom(j, phases[1..], s.fs, s.ran);
    RunFromCons(j, phases, fs, ran);
    if rest.status.Fail? {
      FailureShift(j, phases[0], rest, fs, ran);
    }
  }

  /** The step of `RunFromFailure`: a passing phase in front of a failed run. */
  lemma FailureShift(j: Job, ph: Phase, rest: Report, fs: FS, ran: seq<Invocation>)
    requires var s := Perform(j, ph, fs, ran);
      s.status.Pass? && rest.status.Fail? && |rest.visited| > 0
    requires var s := Perform(j, ph, fs, ran);
      var pre := RunFrom(j, rest.visited[..|rest.visited| - 1], s.fs, s.ran);
      && pre.status.Pass?
      && Perform(j, LastPhase(rest), pre.fs, pre.ran) == Step(rest.status, rest.fs, rest.ran)
    ensures var r := Report(rest.status, rest.fs, rest.ran, [ph] + rest.visited);
      var pre := RunFrom(j, r.visited[..|r.visited| - 1], fs, ran);
      && pre.status.Pass?
      && Perform(j, LastPhase(r), pre.fs, pre.ran) == Step(r.status, r.fs, r.ran)
  {
    var m := |rest.visited|;
    var r := Report(rest.status, rest.fs, rest.ran, [ph] + rest.visited);
    assert r.visited[..|r.visited| - 1] == [ph] + rest.visited[..m - 1];
    assert LastPhase(r) == LastPhase(rest);
    RunFromStep(j, ph, rest.visited[..m - 1], fs, ran);
  }

  /** One step of a run: the first phase, then -- if it passed -- the rest. */
  lemma RunFromCons(j: Job, phases: seq<Phase>, fs: FS, ran: seq<Invocation>)
    requires phases != []
    ensures var s := Perform(j, phases[0], fs, ran);
      var r := RunFrom(j, phases, fs, ran);
      && (s.status.Fail? ==> r == Report(s.status, s.fs, s.ran, [phases[0]]))
      && (s.status.Pass? ==>
            var rest := RunFrom(j, phases[1..], s.fs, s.ran);
            r == Report(rest.status, rest.fs, rest.ran, [phases[0]] + rest.visited))
  {
  }

  /** The same step, for a list written as its first phase and the rest. */
  lemma RunFromStep(j: Job, ph: Phase, rest: seq<Phase>, fs: FS, ran: seq<Invocation>)
    ensures var s := Perform(j, ph, fs, ran);
      RunFrom(j, [ph] + rest, fs, ran) ==
        if s.status.Fail? then Report(s.status, s.fs, s.ran, [ph])
        else
          var r := RunFrom(j, rest, s.fs, s.ran);
          Report(r.status, r.fs, r.ran, [ph] + r.visited)
  {
    assert ([ph] + rest)[0] == ph && ([ph] + rest)[1..] == rest;
  }

  /** Whether the hooks of a phase, if it has any, succeed. */
  predicate HooksPass(j: Job, ph: Phase)
  {
    match ph
    case BeforeHooks => j.before.status.Pass?
    case AfterHooks => j.after.status.Pass?
    case _ => true
  }

  /** A run that completes ran every hook round to success. */
  lemma {:induction false} RunFromHooksPass(j: Job, phases: seq<Phase>, fs: FS, ran: seq<Invocation>)
    ensures RunFrom(j, phases, fs, ran).status.Pass? ==>
      forall i :: 0 <= i < |phases| ==> HooksPass(j, phases[i])
    decreases |phases|
  {
    if phases != [] {
      var s := Perform(j, phases[0], fs, ran);
      RunFromCons(j, phases, fs, ran);
      if s.status.Pass? {
        RunFromHooksPass(j, phases[1..], s.fs, s.ran);
        assert forall i :: 1 <= i < |phases| ==> phases[i] == phases[1..][i - 1];
      }
    }
  }

  /** `current` lies beside `releases`, never on the way to it or below it. */
  lemma Layout(j: Job)
    ensures !(Current(j) <= ReleasesDir(j))
    ensures !(Current(j) <= Target(j))
    ensures !(Target(j) <= Current(j))
    ensures !(ReleasesDir(j) < Current(j))
  {
    assert Current(j)[|j.root|] == "current";
    assert ReleasesDir(j)[|j.root|] == "releases";
    assert Target(j)[|j.root|] == "releases";
  }

  /** Every phase but the last leaves `current` exactly as it was. */
  lemma PerformKeepsCurrent(j: Job, ph: Phase, fs: FS, ran: seq<Invocation>)
    requires !ph.Promoting?
    ensures Untouched(fs, Perform(j, ph, fs, ran).fs, Current(j))
  {
    Layout(j);
    match ph
    case PreparingReleases =>
      ApplyFrame(fs, j.backend, MkdirAll(ReleasesDir(j), ReleasesPerm(j)));
    case Copying =>
    case Pruning =>
    case _ =>
  }

  /** Until the promotion is entered, a run leaves `current` exactly as it was. */
  lemma {:induction false} RunFromKeepsCurrent(j: Job, phases: seq<Phase>, fs: FS, ran: seq<Invocation>)
    ensures var r := RunFrom(j, phases, fs, ran);
      Promoting !in r.visited ==> Untouched(fs, r.fs, Current(j))
    decreases |phases|
  {
    if phases != [] {
      var s := Perform(j, phases[0], fs, ran);
      var r := RunFrom(j, phases, fs, ran);
      RunFromCons(j, phases, fs, ran);
      if Promoting !in r.visited {
        assert r.visited[0] == phases[0];
        PerformKeepsCurrent(j, phases[0], fs, ran);
        if s.status.Pass? {
          var rest := RunFrom(j, phases[1..], s.fs, s.ran);
          assert Promoting !in rest.visited;
          RunFromKeepsCurrent(j, phases[1..], s.fs, s.ran);
        }
      }
    }
  }

  /** Every variant promotes once, as its last phase. */
  lemma PromotingLast(v: Variant, visited: seq<Phase>)
    requires |visited| > 0 && visited <= Phases(v)
    requires !visited[|visited| - 1].Promoting?
    ensures Promoting !in visited
  {
    var ps := Phases(v);
    assert forall i :: 0 <= i < |ps| - 1 ==> !ps[i].Promoting?;
    forall i | 0 <= i < |visited| ensures !visited[i].Promoting? {
      assert visited[i] == ps[i];
    }
  }

  /** A failed run whose failure came before the promotion leaves `current` exactly as
      it was: the release in service stays in service. */
  lemma FailureKeepsCurrent(v: Variant, conf: Config, env: Env)
    requires conf.keep >= 0
    requires v.Remote? ==> env.src.Some?
    ensures var r := Execute(v, conf, env);
      r.status.Fail? && !LastPhase(r).Promoting? ==> Untouched(env.fs, r.fs, Current(Prepare(v, conf, env)))
  {
    var j := Prepare(v, conf, env);
    var r := Execute(v, conf, env);
    assert r == RunFrom(j, Phases(v), env.fs, []);
    RunFromKeepsCurrent(j, Phases(v), env.fs, []);
    if r.status.Fail? && !LastPhase(r).Promoting? {
      PromotingLast(v, r.visited);
    }
  }

  /** A successful promotion makes `current` a link to the new release. */
  lemma PromotingLinks(j: Job, fs: FS, ran: seq<Invocation>)
    ensures var s := Perform(j, Promoting, fs, ran);
      s.status.Pass? ==> Current(j) in s.fs && s.fs[Current(j)] == Link(Target(j))
  {
  }

  /** A run that completes a non-empty list ending in the promotion leaves `current` a
      link to the new release. */
  lemma {:induction false} RunFromPromotes(j: Job, phases: seq<Phase>, fs: FS, ran: seq<Invocation>)
    requires |phases| > 0 && phases[|phases| - 1].Promoting?
    ensures var r := RunFrom(j, phases, fs, ran);
      r.status.Pass? ==> Current(j) in r.fs && r.fs[Current(j)] == Link(Target(j))
    decreases |phases|
  {
    var s := Perform(j, phases[0], fs, ran);
    var r := RunFrom(j, phases, fs, ran);
    RunFromCons(j, phases, fs, ran);
    if s.status.Pass? {
      var rest := RunFrom(j, phases[1..], s.fs, s.ran);
      assert r.status == rest.status && r.fs == rest.fs;
      if |phases| > 1 {
        assert phases[1..][|phases[1..]| - 1] == phases[|phases| - 1];
        RunFromPromotes(j, phases[1..], s.fs, s.ran);
      } else {
        assert phases[0].Promoting? && phases[1..] == [];
        assert rest.fs == s.fs;
        PromotingLinks(j, fs, ran);
      }
    }
  }

  /** A successful run leaves `current` a link to the path of the release it created
      (paths are read from the filesystem root; see `PathOf`). */
  lemma SuccessPromotes(v: Variant, conf: Config, env: Env)
    requires conf.keep >= 0
    requires v.Remote? ==> env.src.Some?
    ensures var r := Execute(v, conf, env);
      var j := Prepare(v, conf, env);
      r.status.Pass? ==> Current(j) in r.fs && r.fs[Current(j)] == Link(Target(j))
  {
    var j := Prepare(v, conf, env);
    assert Execute(v, conf, env) == RunFrom(j, Phases(v), env.fs, []);
    RunFromPromotes(j, Phases(v), env.fs, []);
  }

  /** What a phase does to the set of release names, when it succeeds. */
  function OnReleases(ph: Phase, names: set<string>, id: string, keep: nat): set<string>
  {
    match ph
    case Copying => names + {id}
    case Pruning => Retain(names, keep)
    case _ => names
  }

  /** The same, over a list of phases. */
  function ReleasesAfter(phases: seq<Phase>, names: set<string>, id: string, keep: nat): set<string>
    decreases |phases|
  {
    if phases == [] then names
    else ReleasesAfter(phases[1..], OnReleases(phases[0], names, id, keep), id, keep)
  }

  /** The names inside the releases directory change, phase by phase, as `OnReleases`
      says. */
  lemma PerformReleases(j: Job, ph: Phase, fs: FS, ran: seq<Invocation>)
    ensures var s := Perform(j, ph, fs, ran);
      s.status.Pass? ==> Children(s.fs, ReleasesDir(j)) == OnReleases(ph, Children(fs, ReleasesDir(j)), j.id, j.keep)
  {
    var rel := ReleasesDir(j);
    var s := Perform(j, ph, fs, ran);
    if s.status.Pass? {
      match ph
      case PreparingReleases =>
        ApplyFrame(fs, j.backend, MkdirAll(rel, ReleasesPerm(j)));
        forall n | n in Children(s.fs, rel) ensures n in Children(fs, rel) {
          ChildIn(s.fs, rel, n);
          assert !(rel + [n] <= rel);
          assert (rel + [n])[|rel|] == n;
        }
      case Copying =>
        CopiedRelease(j, fs, s.fs);
      case Promoting =>
        Layout(j);
        forall n | n in Children(s.fs, rel) ensures n in Children(fs, rel) {
          ChildIn(s.fs, rel, n);
          assert rel + [n] != Current(j);
          assert (rel + [n])[|rel|] == n;
        }
        forall n | n in Children(fs, rel) ensures n in Children(s.fs, rel) {
          ChildIn(fs, rel, n);
          assert rel + [n] != Current(j);
          assert (rel + [n])[|rel|] == n;
        }
      case _ =>
    }
  }

  /** A successful copy adds exactly the new release to the releases directory. */
  lemma CopiedRelease(j: Job, fs: FS, fs': FS)
    requires var s := Perform(j, Copying, fs, []); s.status.Pass? && s.fs == fs'
    ensures Children(fs', ReleasesDir(j)) == Children(fs, ReleasesDir(j)) + {j.id}
  {
    var rel := ReleasesDir(j);
    var target := Target(j);
    var e := Copier.CopyTree(fs, j.backend, j.srcPath, j.src.value, target, IsLocal(j.variant));
    assert e.fs == fs' && e.status.Pass?;
    assert target in fs' && target[|rel|] == j.id;
    forall n | n in Children(fs', rel) ensures n in Children(fs, rel) + {j.id} {
      ChildIn(fs', rel, n);
      assert (rel + [n])[|rel|] == n;
      if rel + [n] !in fs {
        assert rel + [n] <= target || target <= rel + [n];
        assert rel + [n] == target;
      }
    }
    forall n | n in Children(fs, rel) ensures n in Children(fs', rel) {
      ChildIn(fs, rel, n);
      assert (rel + [n])[|rel|] == n;
    }
  }

  /** A run that completes, or that stops in a phase that writes nothing, changes the
      release names as the fold over the phases it entered says. */
  lemma {:induction false} RunFromReleases(j: Job, phases: seq<Phase>, fs: FS, ran: seq<Invocation>)
    ensures var r := RunFrom(j, phases, fs, ran);
      r.status.Pass? || (|r.visited| > 0 && !Writes(r.visited[|r.visited| - 1])) ==>
        Children(r.fs, ReleasesDir(j)) == ReleasesAfter(r.visited, Children(fs, ReleasesDir(j)), j.id, j.keep)
    decreases |phases|
  {
    if phases != [] {
      var s := Perform(j, phases[0], fs, ran);
      var r := RunFrom(j, phases, fs, ran);
      RunFromCons(j, phases, fs, ran);
      if s.status.Pass? {
        PerformReleases(j, phases[0], fs, ran);
        var rest := RunFrom(j, phases[1..], s.fs, s.ran);
        RunFromReleases(j, phases[1..], s.fs, s.ran);
        assert r.visited[1..] == rest.visited;
        if rest.visited != [] {
          assert r.visited[|r.visited| - 1] == rest.visited[|rest.visited| - 1];
        }
      } else {
        assert r.visited[1..] == [];
      }
    }
  }

  /** Every variant copies before it prunes and touches the release names nowhere else. */
  lemma PhasesOnReleases(v: Variant, names: set<string>, id: string, keep: nat)
    ensures ReleasesAfter(Phases(v), names, id, keep) == Retain(names + {id}, keep)
  {
    CopyBeforePrune(v, names, id, keep);
    var kept := Retain(names + {id}, keep);
    assert ReleasesAfter([Promoting], kept, id, keep) == kept;
  }

  /** Up to the pruning, every variant only adds the new release. */
  lemma CopyBeforePrune(v: Variant, names: set<string>, id: string, keep: nat)
    ensures ReleasesAfter(Phases(v), names, id, keep) == ReleasesAfter([Pruning, Promoting], names + {id}, id, keep)
  {
    var added := names + {id};
    var tail := ReleasesAfter([Pruning, Promoting], added, id, keep);
    match v
    case LegacyLocal =>
      assert ReleasesAfter([Copying, Pruning, Promoting], names, id, keep) == tail;
    case LegacySsh =>
      assert ReleasesAfter([Copying, Pruning, Promoting], names, id, keep) == tail;
      assert ReleasesAfter([PreparingReleases, CheckingSource, Copying, Pruning, Promoting], names, id, keep) == tail;
    case Local =>
      assert ReleasesAfter([AfterHooks, Pruning, Promoting], added, id, keep) == tail;
      assert ReleasesAfter([Copying, AfterHooks, Pruning, Promoting], names, id, keep) == tail;
      assert ReleasesAfter([BeforeHooks, PreparingReleases, Copying, AfterHooks, Pruning, Promoting], names, id, keep) == tail;
    case Remote =>
      assert ReleasesAfter([AfterHooks, Pruning, Promoting], added, id, keep) == tail;
      assert ReleasesAfter([Copying, AfterHooks, Pruning, Promoting], names, id, keep) == tail;
      assert ReleasesAfter([Connecting, PreparingReleases, Copying, AfterHooks, Pruning, Promoting], names, id, keep) == tail;
  }

  /** After a successful run the releases directory holds the retention of the old
      releases plus the new one. */
  lemma SuccessRetains(v: Variant, conf: Config, env: Env)
    requires conf.keep >= 0
    requires v.Remote? ==> env.src.Some?
    ensures var r := Execute(v, conf, env);
      var j := Prepare(v, conf, env);
      r.status.Pass? ==> Children(r.fs, ReleasesDir(j)) == Retain(Children(env.fs, ReleasesDir(j)) + {j.id}, conf.keep)
  {
    var j := Prepare(v, conf, env);
    assert Execute(v, conf, env) == RunFrom(j, Phases(v), env.fs, []);
    RunRetains(j, v, env.fs);
  }

  /** The same, for any job run through the phases of any variant. */
  lemma RunRetains(j: Job, v: Variant, fs: FS)
    ensures var r := RunFrom(j, Phases(v), fs, []);
      r.status.Pass? ==> Children(r.fs, ReleasesDir(j)) == Retain(Children(fs, ReleasesDir(j)) + {j.id}, j.keep)
  {
    RunFromReleases(j, Phases(v), fs, []);
    PhasesOnReleases(v, Children(fs, ReleasesDir(j)), j.id, j.keep);
  }

  /** With `keep >= 1` and a name above every old release, a successful run keeps the
      new release and the `keep - 1` newest old ones: the release `current` is made to
      name is never pruned. */
  lemma SuccessKeepsNewest(v: Variant, conf: Config, env: Env)
    requires conf.keep >= 1
    requires v.Remote? ==> env.src.Some?
    requires var j := Prepare(v, conf, env);
      forall n :: n in Children(env.fs, ReleasesDir(j)) ==> Below(n, j.id)
    ensures var r := Execute(v, conf, env);
      var j := Prepare(v, conf, env);
      r.status.Pass? ==>
        && Children(r.fs, ReleasesDir(j)) == {j.id} + Retain(Children(env.fs, ReleasesDir(j)), conf.keep - 1)
        && Target(j) in r.fs
        && Current(j) in r.fs && r.fs[Current(j)] == Link(Target(j))
  {
    var j := Prepare(v, conf, env);
    assert Execute(v, conf, env) == RunFrom(j, Phases(v), env.fs, []);
    assert j.keep == conf.keep;
    PhasesOnReleases(v, Children(env.fs, ReleasesDir(j)), j.id, j.keep);
    RunKeepsNewest(j, Phases(v), env.fs);
    SuccessPromotes(v, conf, env);
  }

  /** The same, for any job run through phases that copy, then prune. */
  lemma RunKeepsNewest(j: Job, phases: seq<Phase>, fs: FS)
    requires j.keep >= 1
    requires forall n :: n in Children(fs, ReleasesDir(j)) ==> Below(n, j.id)
    requires var earlier := Children(fs, ReleasesDir(j));
      ReleasesAfter(phases, earlier, j.id, j.keep) == Retain(earlier + {j.id}, j.keep)
    ensures var r := RunFrom(j, phases, fs, []);
      r.status.Pass? ==>
        && Children(r.fs, ReleasesDir(j)) == {j.id} + Retain(Children(fs, ReleasesDir(j)), j.keep - 1)
        && Target(j) in r.fs
  {
    var r := RunFrom(j, phases, fs, []);
    if r.status.Pass? {
      RunFromReleases(j, phases, fs, []);
      RetainNewest(Children(fs, ReleasesDir(j)), j.id, j.keep);
      ChildIn(r.fs, ReleasesDir(j), j.id);
    }
  }

  /** Releases made at earlier times, while the clock had as many digits as now, have
      names below the new one. */
  lemma EarlierReleasesBelow(earlier: set<nat>, now: nat)
    requires forall t :: t in earlier ==> t < now && |Decimal(t)| == |Decimal(now)|
    ensures forall n :: n in (set t | t in earlier :: Decimal(t)) ==> Below(n, Decimal(now))
  {
    forall t | t in earlier ensures Below(Decimal(t), Decimal(now)) {
      DecimalOrder(t, now);
    }
  }

  /** `Local` never reads the after commands: whatever they are, the run is the same. */
  lemma LocalIgnoresAfterCommands(conf: Config, cmds: seq<string>, env: Env)
    requires conf.keep >= 0
    ensures Execute(Local, conf, env) == Execute(Local, conf.(afterRunCmd := cmds), env)
  {
    var conf' := conf.(afterRunCmd := cmds);
    assert Root(Local, conf') == Root(Local, conf);
    assert Prepare(Local, conf', env) == Prepare(Local, conf, env);
  }

  /** The after round of `Local` repeats the before commands: a successful run spawns
      each before command twice, in order, and nothing else. */
  lemma LocalRunsBeforeTwice(conf: Config, env: Env)
    requires conf.keep >= 0
    ensures var r := Execute(Local, conf, env);
      r.status.Pass? ==>
        && |r.ran| == 2 * |conf.beforeRunCmd|
        && forall i :: 0 <= i < |conf.beforeRunCmd| ==>
             r.ran[i] == LocalCall(conf.source, conf.beforeRunCmd[i]) &&
             r.ran[|conf.beforeRunCmd| + i] == LocalCall(conf.source, conf.beforeRunCmd[i])
  {
    var j := Prepare(Local, conf, env);
    var r := Execute(Local, conf, env);
    assert r == RunFrom(j, Phases(Local), env.fs, []);
    LocalRounds(j, env.fs);
    if r.status.Pass? {
      var first := RunLocal(conf.source, conf.beforeRunCmd, env.before);
      var second := RunLocal(conf.source, conf.beforeRunCmd, env.after);
      assert j.before == first && j.after == second;
      assert first.ran == second.ran;
      assert r.ran == first.ran + first.ran;
    }
  }

  /** A successful `Local` run passed both rounds of hooks and made their calls, the
      first round's before the second's, and no others. */
  lemma LocalRounds(j: Job, fs: FS)
    ensures var r := RunFrom(j, Phases(Local), fs, []);
      r.status.Pass? ==> r.ran == j.before.ran + j.after.ran && j.before.status.Pass? && j.after.status.Pass?
  {
    var r := RunFrom(j, Phases(Local), fs, []);
    if r.status.Pass? {
      LocalHooks(j);
      RunFromHooksPass(j, Phases(Local), fs, []);
      LocalHooksPass(j);
      assert r.ran == [] + (j.before.ran + j.after.ran);
    }
  }

  /** The hooks of every `Local` phase pass only when both rounds do. */
  lemma LocalHooksPass(j: Job)
    requires forall i :: 0 <= i < |Phases(Local)| ==> HooksPass(j, Phases(Local)[i])
    ensures j.before.status.Pass? && j.after.status.Pass?
  {
    assert HooksPass(j, Phases(Local)[1]) && HooksPass(j, Phases(Local)[4]);
  }

  /** The hook calls of `Local`: the first round, then the second. */
  lemma LocalHooks(j: Job)
    ensures HooksOf(j, Phases(Local)) == j.before.ran + j.after.ran
  {
    HooksOfCons(j, Promoting, []);
    HooksOfCons(j, Pruning, [Promoting]);
    HooksOfCons(j, AfterHooks, [Pruning, Promoting]);
    HooksOfCons(j, Copying, [AfterHooks, Pruning, Promoting]);
    HooksOfCons(j, PreparingReleases, [Copying, AfterHooks, Pruning, Promoting]);
    HooksOfCons(j, BeforeHooks, [PreparingReleases, Copying, AfterHooks, Pruning, Promoting]);
    HooksOfCons(j, CheckingSource, [BeforeHooks, PreparingReleases, Copying, AfterHooks, Pruning, Promoting]);
  }

  /** An unparsable destination stops the ssh variants at once: no hook, no connection,
      no change. */
  lemma BadDestStops(v: Variant, conf: Config, env: Env)
    requires conf.keep >= 0
    requires v.LegacySsh? || (v.Remote? && env.src.Some?)
    requires ParseDest(conf.dest).Err?
    ensures Execute(v, conf, env) == Report(Fail(InvalidDest), env.fs, [], [ParsingDest])
  {
    var j := Prepare(v, conf, env);
    assert !j.destOk && j.variant == v;
    assert Execute(v, conf, env) == RunFrom(j, Phases(v), env.fs, []);
    DestRejected(j, env.fs);
  }

  /** The same, for any ssh job with an unparsable destination. */
  lemma DestRejected(j: Job, fs: FS)
    requires j.variant.LegacySsh? || j.variant.Remote?
    requires !j.destOk
    ensures RunFrom(j, Phases(j.variant), fs, []) == Report(Fail(InvalidDest), fs, [], [ParsingDest])
  {
    var ps := Phases(j.variant);
    assert ps == [ParsingDest] + ps[1..];
    RunFromStep(j, ParsingDest, ps[1..], fs, []);
  }

  /** A missing source stops the local variants at once: no hook, no change. */
  lemma MissingSourceStops(v: Variant, conf: Config, env: Env)
    requires conf.keep >= 0
    requires v.LegacyLocal? || v.Local?
    requires env.src.None?
    ensures Execute(v, conf, env) == Report(Fail(Message(v, CheckingSource)), env.fs, [], [CheckingSource])
  {
    var j := Prepare(v, conf, env);
    assert j.src.None? && j.variant == v;
    assert Execute(v, conf, env) == RunFrom(j, Phases(v), env.fs, []);
    SourceMissingRun(j, env.fs);
  }

  /** The same, for any local job without a source. */
  lemma SourceMissingRun(j: Job, fs: FS)
    requires j.variant.LegacyLocal? || j.variant.Local?
    requires j.src.None?
    ensures RunFrom(j, Phases(j.variant), fs, []) == Report(Fail(Message(j.variant, CheckingSource)), fs, [], [CheckingSource])
  {
    var ps := Phases(j.variant);
    assert ps == [CheckingSource] + ps[1..];
    SourceMissingStep(j, ps[1..], fs);
  }

  /** The legacy ssh variant looks at the source only after it has connected and made
      the releases directory: a missing source is reported, but the directory stays. */
  lemma LegacySshChecksSourceLate(conf: Config, env: Env)
    requires conf.keep >= 0
    requires ParseDest(conf.dest).Ok? && env.sshOk && env.sftpOk
    requires var j := Prepare(LegacySsh, conf, env);
      !env.backend.fault(MkdirAll(ReleasesDir(j), None)) && Permits(env.fs, MkdirAll(ReleasesDir(j), None))
    requires env.src.None?
    ensures var r := Execute(LegacySsh, conf, env);
      var j := Prepare(LegacySsh, conf, env);
      && r.status == Fail("open src")
      && r.visited == [ParsingDest, Connecting, PreparingReleases, CheckingSource]
      && ReleasesDir(j) in r.fs && r.fs[ReleasesDir(j)].Dir?
  {
    var j := Prepare(LegacySsh, conf, env);
    assert j.variant == LegacySsh && j.destOk && j.sshOk && j.sftpOk && j.src.None? && j.backend == env.backend;
    assert Execute(LegacySsh, conf, env) == RunFrom(j, Phases(LegacySsh), env.fs, []);
    SourceCheckedLate(j, env.fs);
  }

  /** The same, for any legacy ssh job. */
  lemma SourceCheckedLate(j: Job, fs: FS)
    requires j.variant == LegacySsh && j.destOk && j.sshOk && j.sftpOk && j.src.None?
    requires !j.backend.fault(MkdirAll(ReleasesDir(j), None)) && Permits(fs, MkdirAll(ReleasesDir(j), None))
    ensures var r := RunFrom(j, Phases(LegacySsh), fs, []);
      && r.status == Fail("open src")
      && r.visited == [ParsingDest, Connecting, PreparingReleases, CheckingSource]
      && ReleasesDir(j) in r.fs && r.fs[ReleasesDir(j)].Dir?
  {
    SshConnects(j, fs);
    SourceCheckedAfterMkdir(j, fs);
  }

  /** With a valid destination and a working connection, the legacy ssh variant goes on
      to make the releases directory without changing anything. */
  lemma SshConnects(j: Job, fs: FS)
    requires j.variant == LegacySsh && j.destOk && j.sshOk && j.sftpOk
    ensures var rest := [PreparingReleases, CheckingSource, Copying, Pruning, Promoting];
      var r := RunFrom(j, rest, fs, []);
      RunFrom(j, Phases(LegacySsh), fs, []) == Report(r.status, r.fs, r.ran, [ParsingDest, Connecting] + r.visited)
  {
    var rest := [PreparingReleases, CheckingSource, Copying, Pruning, Promoting];
    assert Phases(LegacySsh) == [ParsingDest, Connecting] + rest;
    TwoGates(j, ParsingDest, Connecting, rest, fs);
  }

  /** Two gates that pass join the run in front of the rest. */
  lemma TwoGates(j: Job, a: Phase, b: Phase, rest: seq<Phase>, fs: FS)
    requires a.ParsingDest? && b.Connecting?
    requires j.destOk && j.sshOk && j.sftpOk
    ensures var r := RunFrom(j, rest, fs, []);
      RunFrom(j, [a, b] + rest, fs, []) == Report(r.status, r.fs, r.ran, [a, b] + r.visited)
  {
    var r := RunFrom(j, rest, fs, []);
    ConsCons(a, b, rest);
    ConsCons(a, b, r.visited);
    GateThrough(j, b, rest, fs);
    GateThrough(j, a, [b] + rest, fs);
  }

  lemma ConsCons<T>(a: T, b: T, xs: seq<T>)
    ensures [a] + ([b] + xs) == [a, b] + xs
  {
  }

  /** A gate that passes joins the run in front of the rest. */
  lemma GateThrough(j: Job, ph: Phase, rest: seq<Phase>, fs: FS)
    requires ph.ParsingDest? || ph.CheckingSource? || ph.Connecting?
    requires ph.ParsingDest? ==> j.destOk
    requires ph.CheckingSource? ==> j.src.Some?
    requires ph.Connecting? ==> j.sshOk && j.sftpOk
    ensures var r := RunFrom(j, rest, fs, []);
      RunFrom(j, [ph] + rest, fs, []) == Report(r.status, r.fs, r.ran, [ph] + r.visited)
  {
    GatePasses(j, ph, fs);
    PassesThrough(j, ph, rest, fs, []);
  }

  /** Parsing the destination, finding the source and connecting pass, without effect,
      when the job says they do. */
  lemma GatePasses(j: Job, ph: Phase, fs: FS)
    requires ph.ParsingDest? || ph.CheckingSource? || ph.Connecting?
    requires ph.ParsingDest? ==> j.destOk
    requires ph.CheckingSource? ==> j.src.Some?
    requires ph.Connecting? ==> j.sshOk && j.sftpOk
    ensures Perform(j, ph, fs, []) == Step(Pass, fs, [])
  {
  }

  /** A phase that passes without writing or running hooks just joins the run in front
      of the rest. */
  lemma PassesThrough(j: Job, ph: Phase, rest: seq<Phase>, fs: FS, ran: seq<Invocation>)
    requires Perform(j, ph, fs, ran) == Step(Pass, fs, ran)
    ensures var r := RunFrom(j, rest, fs, ran);
      RunFrom(j, [ph] + rest, fs, ran) == Report(r.status, r.fs, r.ran, [ph] + r.visited)
  {
    RunFromStep(j, ph, rest, fs, ran);
  }

  /** The releases directory is made, then the missing source is found. */
  lemma SourceCheckedAfterMkdir(j: Job, fs: FS)
    requires j.variant == LegacySsh && j.src.None?
    requires !j.backend.fault(MkdirAll(ReleasesDir(j), None)) && Permits(fs, MkdirAll(ReleasesDir(j), None))
    ensures var r := RunFrom(j, [PreparingReleases, CheckingSource, Copying, Pruning, Promoting], fs, []);
      && r.status == Fail("open src")
      && r.visited == [PreparingReleases, CheckingSource]
      && r.ran == []
      && ReleasesDir(j) in r.fs && r.fs[ReleasesDir(j)].Dir?
  {
    var tail := [Copying, Pruning, Promoting];
    var s3 := [CheckingSource] + tail;
    assert [PreparingReleases, CheckingSource, Copying, Pruning, Promoting] == [PreparingReleases] + s3;
    var fs' := MkdirStep(j, fs);
    SourceMissingStep(j, tail, fs');
    RunFromStep(j, PreparingReleases, s3, fs, []);
  }

  /** The legacy ssh variant makes the releases directory without the source's mode. */
  lemma MkdirStep(j: Job, fs: FS) returns (fs': FS)
    requires !IsLocal(j.variant)
    requires !j.backend.fault(MkdirAll(ReleasesDir(j), None)) && Permits(fs, MkdirAll(ReleasesDir(j), None))
    ensures Perform(j, PreparingReleases, fs, []) == Step(Pass, fs', [])
    ensures ReleasesDir(j) in fs' && fs'[ReleasesDir(j)].Dir?
  {
    var rel := ReleasesDir(j);
    var mk := Apply(fs, j.backend, MkdirAll(rel, None));
    PrefixesAre(rel, rel);
    fs' := mk.fs;
  }

  /** A missing source stops the run where it is checked. */
  lemma SourceMissingStep(j: Job, rest: seq<Phase>, fs: FS)
    requires j.src.None?
    ensures RunFrom(j, [CheckingSource] + rest, fs, []) == Report(Fail(Message(j.variant, CheckingSource)), fs, [], [CheckingSource])
  {
    RunFromStep(j, CheckingSource, rest, fs, []);
  }

  /** Failing hooks in the first round stop the newer variants before anything is
      written; the commands up to the failing one have run. */
  lemma BeforeHooksGate(v: Variant, conf: Config, env: Env)
    requires conf.keep >= 0
    requires v.Local? || v.Remote?
    requires env.src.Some?
    requires v.Remote? ==> ParseDest(conf.dest).Ok?
    requires RunLocal(conf.source, conf.beforeRunCmd, env.before).status.Fail?
    ensures var r := Execute(v, conf, env);
      && r.status == Fail("before run commands return non 0 exit code")
      && r.fs == env.fs
      && r.ran == RunLocal(conf.source, conf.beforeRunCmd, env.before).ran
  {
    var j := Prepare(v, conf, env);
    assert j.before == RunLocal(conf.source, conf.beforeRunCmd, env.before);
    assert (v.Remote? ==> j.destOk) && j.src.Some? && j.variant == v;
    assert Execute(v, conf, env) == RunFrom(j, Phases(v), env.fs, []);
    BeforeHooksStop(j, env.fs);
  }

  /** The same, for any `Local` or `Remote` job. */
  lemma BeforeHooksStop(j: Job, fs: FS)
    requires j.variant.Local? || j.variant.Remote?
    requires j.variant.Remote? ==> j.destOk
    requires j.variant.Local? ==> j.src.Some?
    requires j.before.status.Fail?
    ensures RunFrom(j, Phases(j.variant), fs, []) ==
      Report(Fail("before run commands return non 0 exit code"), fs, j.before.ran, [Phases(j.variant)[0], BeforeHooks])
  {
    var ps := Phases(j.variant);
    var rest := ps[2..];
    assert ps == [ps[0], BeforeHooks] + rest;
    GateThenHooks(j, ps[0], rest, fs);
  }

  /** A gate that passes, then failing hooks of the first round. */
  lemma GateThenHooks(j: Job, g: Phase, rest: seq<Phase>, fs: FS)
    requires g.ParsingDest? || g.CheckingSource?
    requires g.ParsingDest? ==> j.destOk
    requires g.CheckingSource? ==> j.src.Some?
    requires j.before.status.Fail?
    ensures RunFrom(j, [g, BeforeHooks] + rest, fs, []) ==
      Report(Fail(Message(j.variant, BeforeHooks)), fs, j.before.ran, [g, BeforeHooks])
  {
    ConsCons(g, BeforeHooks, rest);
    ConsCons(g, BeforeHooks, []);
    BeforeHooksFail(j, rest, fs);
    GateThrough(j, g, [BeforeHooks] + rest, fs);
  }

  /** Failing hooks of the first round end the run. */
  lemma BeforeHooksFail(j: Job, rest: seq<Phase>, fs: FS)
    requires j.before.status.Fail?
    ensures RunFrom(j, [BeforeHooks] + rest, fs, []) ==
      Report(Fail(Message(j.variant, BeforeHooks)), fs, j.before.ran, [BeforeHooks])
  {
    assert [] + j.before.ran == j.before.ran;
    RunFromStep(j, BeforeHooks, rest, fs, []);
  }

  /** Where each variant first writes. */
  function FirstWrite(v: Variant): nat
  {
    match v
    case LegacyLocal => 1
    case LegacySsh => 2
    case Local => 2
    case Remote => 3
  }

  /** No variant writes before it makes the releases directory: a run that fails before
      that phase leaves the destination as it was. */
  lemma EarlyFailureWritesNothing(v: Variant, conf: Config, env: Env)
    requires conf.keep >= 0
    requires v.Remote? ==> env.src.Some?
    ensures var r := Execute(v, conf, env);
      PreparingReleases !in r.visited ==> r.fs == env.fs
  {
    var j := Prepare(v, conf, env);
    assert Execute(v, conf, env) == RunFrom(j, Phases(v), env.fs, []);
    FirstWriteAt(v);
    RunBeforeWrite(j, Phases(v), env.fs, FirstWrite(v));
  }

  /** Where each variant first writes: making the releases directory, before which no
      phase writes. */
  lemma FirstWriteAt(v: Variant)
    ensures FirstWrite(v) < |Phases(v)| && Phases(v)[FirstWrite(v)] == PreparingReleases
    ensures forall i :: 0 <= i < FirstWrite(v) ==> !Writes(Phases(v)[i])
  {
  }

  /** A run of phases that stops before the first writing one writes nothing. */
  lemma RunBeforeWrite(j: Job, ps: seq<Phase>, fs: FS, w: nat)
    requires w < |ps| && ps[w] == PreparingReleases
    requires forall i :: 0 <= i < w ==> !Writes(ps[i])
    ensures var r := RunFrom(j, ps, fs, []);
      PreparingReleases !in r.visited ==> r.fs == fs
  {
    var r := RunFrom(j, ps, fs, []);
    if PreparingReleases !in r.visited {
      PrefixBefore(r.visited, ps, w);
    }
  }

  lemma PrefixBefore(visited: seq<Phase>, ps: seq<Phase>, w: nat)
    requires visited <= ps && w < |ps| && ps[w] == PreparingReleases
    requires forall i :: 0 <= i < w ==> !Writes(ps[i])
    requires PreparingReleases !in visited
    ensures forall i :: 0 <= i < |visited| ==> !Writes(visited[i])
  {
    assert forall i :: 0 <= i < |visited| ==> visited[i] == ps[i];
    assert forall i :: 0 <= i < |visited| ==> visited[i] != PreparingReleases;
  }

  /** When the second round of hooks fails, the new release has been copied and stays,
      no old release has been pruned, and `current` still points where it did. */
  lemma AfterHooksFailureKeepsRelease(v: Variant, conf: Config, env: Env)
    requires conf.keep >= 0
    requires v.Local? || (v.Remote? && env.src.Some?)
    ensures var r := Execute(v, conf, env);
      var j := Prepare(v, conf, env);
      r.status.Fail? && LastPhase(r).AfterHooks? ==>
        && Children(r.fs, ReleasesDir(j)) == Children(env.fs, ReleasesDir(j)) + {j.id}
        && Target(j) in r.fs
        && Untouched(env.fs, r.fs, Current(j))
  {
    var j := Prepare(v, conf, env);
    assert Execute(v, conf, env) == RunFrom(j, Phases(v), env.fs, []);
    AfterHooksFailure(j, v, env.fs);
  }

  /** The same, for any job run through the phases of `Local` or `Remote`. */
  lemma AfterHooksFailure(j: Job, v: Variant, fs: FS)
    requires v.Local? || v.Remote?
    ensures var r := RunFrom(j, Phases(v), fs, []);
      r.status.Fail? && LastPhase(r).AfterHooks? ==>
        && Children(r.fs, ReleasesDir(j)) == Children(fs, ReleasesDir(j)) + {j.id}
        && Target(j) in r.fs
        && Untouched(fs, r.fs, Current(j))
  {
    AfterHooksFailureReleases(j, v, fs);
    AfterHooksFailureCurrent(j, v, fs);
  }

  lemma AfterHooksFailureReleases(j: Job, v: Variant, fs: FS)
    requires v.Local? || v.Remote?
    ensures var r := RunFrom(j, Phases(v), fs, []);
      r.status.Fail? && LastPhase(r).AfterHooks? ==>
        && Children(r.fs, ReleasesDir(j)) == Children(fs, ReleasesDir(j)) + {j.id}
        && Target(j) in r.fs
  {
    var r := RunFrom(j, Phases(v), fs, []);
    AfterHooksNames(j, v, fs);
    if r.status.Fail? && LastPhase(r).AfterHooks? {
      ChildIn(r.fs, ReleasesDir(j), j.id);
    }
  }

  lemma AfterHooksNames(j: Job, v: Variant, fs: FS)
    requires v.Local? || v.Remote?
    ensures var r := RunFrom(j, Phases(v), fs, []);
      r.status.Fail? && LastPhase(r).AfterHooks? ==>
        Children(r.fs, ReleasesDir(j)) == Children(fs, ReleasesDir(j)) + {j.id}
  {
    var names := Children(fs, ReleasesDir(j));
    forall visited | visited <= Phases(v) && |visited| > 0 && visited[|visited| - 1].AfterHooks?
      ensures ReleasesAfter(visited, names, j.id, j.keep) == names + {j.id}
    {
      AfterHooksStop(v, visited, names, j.id, j.keep);
    }
    StopNames(j, Phases(v), fs);
  }

  /** In a run over phases whose every prefix ending in the second round of hooks has
      only added the new release, a stop in that round leaves just that addition. */
  lemma StopNames(j: Job, phases: seq<Phase>, fs: FS)
    requires var names := Children(fs, ReleasesDir(j));
      forall visited :: visited <= phases && |visited| > 0 && visited[|visited| - 1].AfterHooks? ==>
        ReleasesAfter(visited, names, j.id, j.keep) == names + {j.id}
    ensures var r := RunFrom(j, phases, fs, []);
      r.status.Fail? && LastPhase(r).AfterHooks? ==>
        Children(r.fs, ReleasesDir(j)) == Children(fs, ReleasesDir(j)) + {j.id}
  {
    var r := RunFrom(j, phases, fs, []);
    RunFromReleases(j, phases, fs, []);
    if r.status.Fail? && LastPhase(r).AfterHooks? {
      StopInHooks(j, phases, r.visited, Children(fs, ReleasesDir(j)));
    }
  }

  /** The visited-prefix step of `StopNames`. */
  lemma StopInHooks(j: Job, phases: seq<Phase>, visited: seq<Phase>, names: set<string>)
    requires forall vs :: vs <= phases && |vs| > 0 && vs[|vs| - 1].AfterHooks? ==>
      ReleasesAfter(vs, names, j.id, j.keep) == names + {j.id}
    requires visited <= phases && |visited| > 0 && visited[|visited| - 1].AfterHooks?
    ensures !Writes(visited[|visited| - 1])
    ensures ReleasesAfter(visited, names, j.id, j.keep) == names + {j.id}
  {
  }

  lemma AfterHooksFailureCurrent(j: Job, v: Variant, fs: FS)
    requires v.Local? || v.Remote?
    ensures var r := RunFrom(j, Phases(v), fs, []);
      r.status.Fail? && LastPhase(r).AfterHooks? ==> Untouched(fs, r.fs, Current(j))
  {
    var r := RunFrom(j, Phases(v), fs, []);
    if r.status.Fail? && LastPhase(r).AfterHooks? {
      AfterHooksStop(v, r.visited, Children(fs, ReleasesDir(j)), j.id, j.keep);
      RunFromKeepsCurrent(j, Phases(v), fs, []);
    }
  }

  /** A run of `Local` or `Remote` that stops in the second round of hooks has entered
      the copy but neither the pruning nor the promotion. */
  lemma AfterHooksStop(v: Variant, visited: seq<Phase>, names: set<string>, id: string, keep: nat)
    requires v.Local? || v.Remote?
    requires visited <= Phases(v) && |visited| > 0 && visited[|visited| - 1].AfterHooks?
    ensures ReleasesAfter(visited, names, id, keep) == names + {id}
    ensures Promoting !in visited
    ensures !Writes(visited[|visited| - 1])
  {
    var ps := Phases(v);
    var n := |visited|;
    var at := if v.Local? then 4 else 5;
    assert forall i :: 0 <= i < |ps| && i != at ==> !ps[i].AfterHooks?;
    assert visited[n - 1] == ps[n - 1];
    assert visited == ps[..at + 1];
    AfterHooksReleases(v, names, id, keep);
    PromotingLast(v, visited);
  }

  /** Up to and including the second round of hooks, the newer variants only add the new
      release. */
  lemma AfterHooksReleases(v: Variant, names: set<string>, id: string, keep: nat)
    requires v.Local? || v.Remote?
    ensures var at := if v.Local? then 4 else 5;
      ReleasesAfter(Phases(v)[..at + 1], names, id, keep) == names + {id}
  {
    assert ReleasesAfter([AfterHooks], names + {id}, id, keep) == names + {id};
    assert ReleasesAfter([Copying, AfterHooks], names, id, keep) == names + {id};
    if v.Local? {
      assert Phases(v)[..5] == [CheckingSource, BeforeHooks, PreparingReleases, Copying, AfterHooks];
      assert ReleasesAfter([BeforeHooks, PreparingReleases, Copying, AfterHooks], names, id, keep) == names + {id};
    } else {
      assert Phases(v)[..6] == [ParsingDest, BeforeHooks, Connecting, PreparingReleases, Copying, AfterHooks];
      assert ReleasesAfter([Connecting, PreparingReleases, Copying, AfterHooks], names, id, keep) == names + {id};
      assert ReleasesAfter([BeforeHooks, Connecting, PreparingReleases, Copying, AfterHooks], names, id, keep) == names + {id};
    }
  }
}

=== FILE: destination.dfy ===
/** Parsing of the remote destination `user@host[:port]:path`, done identically by
    `executeSSH` (command.go) and `executeRemote` (command_remote.go). */
module Destination {
  import opened GoStrings
  import opened Results

  /** Where a remote deployment goes: the login user, the `host:port` to dial and the
      directory on the remote host that holds `releases/` and `current`. */
  datatype Remote = Remote(user: string, addr: string, dir: string)

  const InvalidDest: string := "invalid dest value"
  const DefaultPort: string := "22"

  /** The parser of both remote orchestrators. The string must split on `@` into exactly
      two parts; the second must split on `:` into two parts (the port defaults to 22)
      or three (host, port, path). */
  function ParseDest(dest: string): (r: Result<Remote, string>)
    ensures r.Err? ==> r.error == InvalidDest
    ensures r.Ok? ==> '@' !in r.value.user && ':' !in r.value.dir
  {
    var parts := Split(dest, '@');
    if |parts| != 2 then Err(InvalidDest)
    else
      var user := parts[0];
      var hostParts := Split(parts[1], ':');
      if |hostParts| == 2 then
        Ok(Remote(user, hostParts[0] + [':'] + DefaultPort, hostParts[1]))
      else if |hostParts| == 3 then
        Ok(Remote(user, Join(hostParts[0..2], ':'), hostParts[2]))
      else Err(InvalidDest)
  }

  /** A field between separators: no `@` and no `:`. */
  predicate Field(s: string)
  {
    '@' !in s && ':' !in s
  }

  /** The destination string for a user, a host, an optional port and a directory. */
  function Render(user: string, host: string, port: Option<string>, dir: string): string
  {
    match port
    case None => user + ['@'] + (host + [':'] + dir)
    case Some(p) => user + ['@'] + (host + [':'] + (p + [':'] + dir))
  }

  /** The address dialled for a host and optional port. */
  function Address(host: string, port: Option<string>): string
  {
    match port
    case None => host + [':'] + DefaultPort
    case Some(p) => host + [':'] + p
  }

  /** Every well-formed destination is accepted, with port 22 when none is given. */
  lemma ParseRender(user: string, host: string, port: Option<string>, dir: string)
    requires '@' !in user
    requires Field(host) && Field(dir)
    requires port.Some? ==> Field(port.value)
    ensures ParseDest(Render(user, host, port, dir)) == Ok(Remote(user, Address(host, port), dir))
  {
    match port
    case None =>
      ParseRenderNoPort(user, host, dir);
    case Some(p) =>
      ParseRenderPort(user, host, p, dir);
  }

  lemma ParseRenderNoPort(user: string, host: string, dir: string)
    requires '@' !in user
    requires Field(host) && Field(dir)
    ensures ParseDest(Render(user, host, None, dir)) == Ok(Remote(user, Address(host, None), dir))
  {
    var rest := host + [':'] + dir;
    SplitOnce(user, rest, '@');
    SplitOnce(host, dir, ':');
  }

  lemma ParseRenderPort(user: string, host: string, port: string, dir: string)
    requires '@' !in user
    requires Field(host) && Field(port) && Field(dir)
    ensures ParseDest(Render(user, host, Some(port), dir)) == Ok(Remote(user, Address(host, Some(port)), dir))
  {
    var tail := port + [':'] + dir;
    var rest := host + [':'] + tail;
    SplitOnce(user, rest, '@');
    SplitOnce(port, dir, ':');
    SplitPrefix(host, tail, ':');
    var hostParts := Split(rest, ':');
    assert hostParts == [host, port, dir];
    assert hostParts[0..2] == [host, port];
    assert Join([host, port], ':') == host + [':'] + port;
  }

  /** `a + [sep] + b` with no separator in `a` or `b` splits into `[a, b]`. */
  lemma SplitOnce(a: string, b: string, sep: char)
    requires sep !in a && sep !in b
    ensures Split(a + [sep] + b, sep) == [a, b]
  {
    SplitPrefix(a, b, sep);
    SplitSepFree(b, sep);
  }

  /** Everything accepted is a well-formed destination, and the parse is its fields. */
  lemma ParseSound(dest: string)
    requires ParseDest(dest).Ok?
    ensures var r := ParseDest(dest).value;
      exists host: string, port: Option<string> ::
        && Field(host) && (port.Some? ==> Field(port.value))
        && dest == Render(r.user, host, port, r.dir)
        && r.addr == Address(host, port)
  {
    var r := ParseDest(dest).value;
    var parts := Split(dest, '@');
    JoinSplit(dest, '@');
    assert dest == parts[0] + "@" + parts[1];
    var hostParts := Split(parts[1], ':');
    JoinSplit(parts[1], ':');
    if |hostParts| == 2 {
      assert parts[1] == hostParts[0] + ":" + hostParts[1];
      assert dest == Render(r.user, hostParts[0], None, r.dir);
      assert Field(hostParts[0]);
    } else {
      assert |hostParts| == 3;
      var first := hostParts[0..2];
      assert first[1..] == [hostParts[1]];
      assert Join(first, ':') == hostParts[0] + [':'] + Join(first[1..], ':');
      assert r.addr == hostParts[0] + [':'] + hostParts[1];
      assert r.dir == hostParts[2];
      assert Join(hostParts[1..], ':') == hostParts[1] + [':'] + hostParts[2];
      assert Join(hostParts, ':') == hostParts[0] + [':'] + (hostParts[1] + [':'] + hostParts[2]);
      assert dest == Render(r.user, hostParts[0], Some(hostParts[1]), r.dir);
      assert Field(hostParts[0]) && Field(hostParts[1]);
    }
  }

  /** A destination whose part after the `@` has no `:` -- no directory -- is rejected. */
  lemma RejectNoDirectory(user: string, host: string)
    requires '@' !in user && Field(host)
    ensures ParseDest(user + ['@'] + host) == Err(InvalidDest)
  {
    SplitOnce(user, host, '@');
    SplitSepFree(host, ':');
  }

  /** Destinations with no `@`, or with more than one, are rejected. */
  lemma RejectAtCount(dest: string)
    requires multiset(dest)['@'] != 1
    ensures ParseDest(dest) == Err(InvalidDest)
  {
    SplitCount(dest, '@');
  }
}

=== FILE: entry.dfy ===
/** The part of `main` (main.go) that decides what runs: the source must exist, a zero
    `keep` becomes the default of 5, and `local` picks `executeLocal` or
    `executeRemote`. Reading and decoding the JSON configuration, and the logging, are
    not modelled; the configuration arrives decoded.

    main.go replaces only a ZERO `keep`: a negative one reaches the pruning loop, which
    then indexes past the end of its listing (`Releases.NegativeKeepOverruns`). The
    model runs the orchestrators with `NormalizeKeep`, which also replaces a negative
    `keep` by the default. */
module Entry {
  import opened Results
  import opened FileSystem
  import opened GoStrings
  import opened Sorting
  import opened Releases
  import opened Deploy

  /** `defaultKeep`. */
  const DefaultKeepCount: nat := 5

  /** What `main` ends with: a fatal log line before any deployment, or the result of
      the orchestrator it chose. */
  datatype Exit = Fatal(msg: string) | Deployed(report: Report)

  /** `if conf.Keep == 0 { conf.Keep = defaultKeep }`, as written. */
  function DefaultKeep(k: int): int
  {
    if k == 0 then DefaultKeepCount else k
  }

  /** The count the orchestrators are run with: the default for zero, as main.go does,
      and for a negative count as well. */
  function NormalizeKeep(k: int): (r: nat)
    ensures r >= 1
    ensures k >= 0 ==> r == DefaultKeep(k)
    ensures k < 0 ==> r == DefaultKeepCount
  {
    if k <= 0 then DefaultKeepCount else k
  }

  /** As written, a negative `keep` passes through the default unchanged, and the
      pruning loop over `n` releases then reads index `n`, one past the end. */
  lemma NegativeKeepPassesThrough(k: int, n: nat)
    requires k < 0
    ensures DefaultKeep(k) == k
    ensures n in LoopIndices(n, DefaultKeep(k), 0)
  {
    NegativeKeepOverruns(n, DefaultKeep(k), 0);
  }

  /** With the normalised count the pruning loop stays within the listing and keeps at
      least one release. */
  lemma NormalizedKeepInRange(k: int, n: nat)
    ensures forall x :: x in LoopIndices(n, NormalizeKeep(k), 0) ==> 0 <= x < n
    ensures forall x :: x in LoopIndices(n, NormalizeKeep(k), 0) <==> 0 <= x < n - NormalizeKeep(k)
  {
    LoopIndicesInRange(n, NormalizeKeep(k), 0);
  }

  function VariantOf(local: bool): Variant
  {
    if local then Local else Remote
  }

  /** `main` after the configuration is decoded, with the corrected defaulting of
      `keep` (`NormalizeKeep`) in place of the test for zero at main.go:47-49. */
  function Run(conf: Config, local: bool, env: Env): (x: Exit)
    ensures env.src.None? <==> x == Fatal("can't find source file / folder")
    ensures x.Deployed? ==> x.report.visited <= Phases(VariantOf(local))
    ensures x.Deployed? && x.report.status.Pass? ==> x.report.visited == Phases(VariantOf(local))
  {
    if env.src.None? then Fatal("can't find source file / folder")
    else Deployed(Execute(VariantOf(local), conf.(keep := NormalizeKeep(conf.keep)), env))
  }

  /** The job `main` runs. */
  function JobOf(conf: Config, local: bool, env: Env): Job
  {
    Prepare(VariantOf(local), conf.(keep := NormalizeKeep(conf.keep)), env)
  }

  /** When every old release sorts below the new one, a deployment that succeeds keeps
      the new release and the newest old ones, and `current` links to the new release.
      This holds for every configured `keep` because `Run` normalises it first; as
      written, main.go lets a negative `keep` through to the pruning loop. */
  lemma RunKeepsNewRelease(conf: Config, local: bool, env: Env)
    requires var j := JobOf(conf, local, env);
      forall n :: n in Children(env.fs, ReleasesDir(j)) ==> Below(n, j.id)
    ensures var x := Run(conf, local, env);
      var j := JobOf(conf, local, env);
      x.Deployed? && x.report.status.Pass? ==>
        && Children(x.report.fs, ReleasesDir(j)) == {j.id} + Retain(Children(env.fs, ReleasesDir(j)), j.keep - 1)
        && Target(j) in x.report.fs
        && Current(j) in x.report.fs && x.report.fs[Current(j)] == Link(Target(j))
  {
    if env.src.Some? {
      var conf' := conf.(keep := NormalizeKeep(conf.keep));
      var v := VariantOf(local);
      assert Run(conf, local, env) == Deployed(Execute(v, conf', env));
      assert JobOf(conf, local, env) == Prepare(v, conf', env);
      SuccessKeepsNewest(v, conf', env);
      SuccessPromotes(v, conf', env);
    }
  }
}

=== FILE: filesystem.dfy ===
/** The destination side of a deployment as an immutable value, and the primitive calls
    the deploy engine makes on it.

    A filesystem is a finite map from paths (sequences of names) to inodes. The local
    variants reach it through `os`, `ioutil` and `copy`; the remote variants through one
    sftp session. Both are a `Backend`: the map plus an oracle `fault` saying which calls
    fail for reasons outside the model (permissions, a dropped connection, a full disk),
    and the permission bits the far side gives a directory or file created without any.

    Every call is an `Op`. A call succeeds when the oracle lets it through AND the
    filesystem permits it (the path exists, the parent is a directory, ...); a failed
    call changes nothing. Composite procedures report an `Effect`: how they ended, the
    resulting filesystem and the calls they made, in order. */
module FileSystem {
  import opened Results
  import opened GoStrings
  import opened Sorting

  newtype byte = x: int | 0 <= x < 256

  /** Permission bits, as `os.FileMode` carries them. */
  type Mode = nat

  /** A path below the filesystem root, one name per component. */
  type Path = seq<string>

  datatype Inode =
    | File(mode: Mode, data: seq<byte>)
    | Dir(mode: Mode)
    | Link(target: Path)

  type FS = map<Path, Inode>

  /** The primitive calls of the deploy engine. `OpenSource` and `ReadSourceDir` read the
      local source tree; the rest act on the destination. */
  datatype Op =
    | Stat(path: Path)                          // os.Stat / sftp Stat
    | ReadDir(path: Path)                       // ioutil.ReadDir / sftp ReadDir
    | MkdirAll(path: Path, perm: Option<Mode>)  // os.MkdirAll(p, perm) / sftp MkdirAll(p)
    | Create(path: Path)                        // sftp Create (O_RDWR|O_CREATE|O_TRUNC)
    | Chmod(path: Path, mode: Mode)             // sftp Chmod
    | OpenSource(path: Path)                    // os.Open on the source file
    | ReadSourceDir(path: Path)                 // ioutil.ReadDir on the source directory
    | Write(path: Path, data: seq<byte>)        // io.Copy of a whole source file
    | Remove(path: Path)                        // os.Remove / sftp Remove
    | RemoveAll(path: Path)                     // os.RemoveAll
    | Symlink(link: Path, target: Path)         // os.Symlink / sftp Symlink

  /** What lies outside the model about one side of a deployment. */
  datatype Backend = Backend(fault: Op -> bool, dirMode: Mode, fileMode: Mode)

  /** The ancestors of `p`, from the root down, and `p` itself. */
  function Prefixes(p: Path): set<Path>
  {
    set i | 0 <= i <= |p| :: p[..i]
  }

  lemma PrefixesAre(p: Path, q: Path)
    ensures q in Prefixes(p) <==> q <= p
  {
    if q <= p {
      assert p[..|q|] == q;
    }
  }

  predicate ParentIsDir(fs: FS, p: Path)
  {
    |p| > 0 && p[..|p| - 1] in fs && fs[p[..|p| - 1]].Dir?
  }

  /** Something lies strictly beneath `p`. */
  predicate HasDescendants(fs: FS, p: Path)
  {
    exists k :: k in fs && p < k
  }

  /** The names of the entries directly inside `p`. */
  function Children(fs: FS, p: Path): set<string>
  {
    set k | k in fs && |k| == |p| + 1 && p <= k :: k[|p|]
  }

  /** A listed name is the last component of an existing path. */
  lemma ChildIn(fs: FS, p: Path, n: string)
    requires n in Children(fs, p)
    ensures p + [n] in fs
  {
    var k :| k in fs && |k| == |p| + 1 && p <= k && k[|p|] == n;
    assert k == p + [n];
  }

  /** A directory listing: the names of the entries of `p`, in ascending order. */
  function ListDir(fs: FS, p: Path): (names: seq<string>)
    ensures StrictlySorted(names)
    ensures forall n :: n in names <==> n in Children(fs, p)
  {
    SetToSorted(Children(fs, p))
  }

  /** When the filesystem lets a call through (the oracle aside). */
  predicate Permits(fs: FS, op: Op)
  {
    match op
    case Stat(p) => p in fs
    case ReadDir(p) => p in fs && fs[p].Dir?
    case MkdirAll(p, _) => forall q :: q in Prefixes(p) && q in fs ==> fs[q].Dir?
    case Create(p) => ParentIsDir(fs, p) && (p in fs ==> fs[p].File?)
    case Chmod(p, _) => p in fs && !fs[p].Link?
    case OpenSource(_) => true
    case ReadSourceDir(_) => true
    case Write(p, _) => p in fs && fs[p].File?
    case Remove(p) => p in fs && !HasDescendants(fs, p)
    case RemoveAll(_) => true
    case Symlink(link, _) => ParentIsDir(fs, link) && link !in fs
  }

  /** What a permitted call does to the filesystem. */
  function Perform(fs: FS, op: Op, b: Backend): FS
  {
    match op
    case MkdirAll(p, perm) =>
      var mode := match perm case Some(m) => m case None => b.dirMode;
      fs + map q | q in Prefixes(p) && q !in fs :: Dir(mode)
    case Create(p) =>
      // truncating an existing file keeps its permission bits
      var mode := if p in fs && fs[p].File? then fs[p].mode else b.fileMode;
      fs[p := File(mode, [])]
    case Chmod(p, m) =>
      if p !in fs then fs
      else (
        match fs[p]
        case File(_, d) => fs[p := File(m, d)]
        case Dir(_) => fs[p := Dir(m)]
        case Link(_) => fs)
    case Write(p, d) =>
      if p in fs && fs[p].File? then fs[p := File(fs[p].mode, d)] else fs
    case Remove(p) => fs - {p}
    case RemoveAll(p) => map k | k in fs && !(p <= k) :: fs[k]
    case Symlink(link, target) => fs[link := Link(target)]
    case _ => fs
  }

  /** The paths a call may change. */
  predicate Affects(op: Op, k: Path)
  {
    match op
    case MkdirAll(p, _) => k <= p
    case Create(p) => k == p
    case Chmod(p, _) => k == p
    case Write(p, _) => k == p
    case Remove(p) => k == p
    case RemoveAll(p) => p <= k
    case Symlink(link, _) => k == link
    case _ => false
  }

  datatype Effect = Effect(status: Outcome<Op>, fs: FS, ops: seq<Op>)

  /** A failed effect names the call that failed, and it is the last call made. */
  predicate Coherent(e: Effect)
  {
    e.status.Fail? ==> |e.ops| > 0 && e.ops[|e.ops| - 1] == e.status.error
  }

  /** `second` ran after `first` succeeded. */
  function Then(first: Effect, second: Effect): (e: Effect)
    ensures Coherent(second) ==> Coherent(e)
  {
    Effect(second.status, second.fs, first.ops + second.ops)
  }

  /** One call: it fails when the oracle says so or the filesystem refuses it, and a
      failed call changes nothing. */
  function Apply(fs: FS, b: Backend, op: Op): (e: Effect)
    ensures e.ops == [op] && Coherent(e)
    ensures e.status.Pass? <==> !b.fault(op) && Permits(fs, op)
    ensures e.status.Fail? ==> e.status.error == op && e.fs == fs
    ensures e.status.Pass? ==> e.fs == Perform(fs, op, b)
  {
    if b.fault(op) || !Permits(fs, op) then Effect(Fail(op), fs, [op])
    else Effect(Pass, Perform(fs, op, b), [op])
  }

  /** Neither presence nor content of `k` changes. */
  predicate Untouched(fs: FS, fs': FS, k: Path)
  {
    (k in fs <==> k in fs') && (k in fs ==> fs'[k] == fs[k])
  }

  /** A call changes only the paths it affects; only `Remove` and `RemoveAll` delete. */
  lemma ApplyFrame(fs: FS, b: Backend, op: Op)
    ensures forall k :: !Affects(op, k) ==> Untouched(fs, Apply(fs, b, op).fs, k)
    ensures !op.Remove? && !op.RemoveAll? ==> fs.Keys <= Apply(fs, b, op).fs.Keys
    ensures op.MkdirAll? ==> forall k :: k in fs ==> k in Apply(fs, b, op).fs && Apply(fs, b, op).fs[k] == fs[k]
  {
    var e := Apply(fs, b, op);
    if e.status.Pass? {
      match op
      case MkdirAll(p, perm) =>
        forall k | !Affects(op, k) ensures Untouched(fs, e.fs, k) {
          PrefixesAre(p, k);
        }
      case RemoveAll(p) =>
      case _ =>
    }
  }

  /** Successful calls in sequence, stopping at the first failure. */
  function RunOps(fs: FS, b: Backend, ops: seq<Op>): (e: Effect)
    ensures Coherent(e)
    ensures e.ops <= ops
    ensures e.status.Pass? ==> e.ops == ops
    ensures e.status.Pass? ==> forall i :: 0 <= i < |ops| ==> !b.fault(ops[i])
    ensures e.status.Fail? ==> b.fault(e.status.error) || !Permits(e.fs, e.status.error)
    decreases |ops|
  {
    if ops == [] then Effect(Pass, fs, [])
    else
      var first := Apply(fs, b, ops[0]);
      if first.status.Fail? then first
      else
        var rest := RunOps(first.fs, b, ops[1..]);
        assert [ops[0]] + ops[1..] == ops;
        assert rest.ops == ops[1..] ==> ([ops[0]] + rest.ops) == ops;
        assert rest.status.Pass? ==> forall i :: 1 <= i < |ops| ==> ops[i] == ops[1..][i - 1];
        Then(first, rest)
  }

  /** Running a call list is running its first call, then -- if it passed -- the rest. */
  lemma RunOpsCons(fs: FS, b: Backend, op: Op, rest: seq<Op>)
    ensures RunOps(fs, b, [op] + rest) ==
      (var head := Apply(fs, b, op);
       if head.status.Fail? then head else Then(head, RunOps(head.fs, b, rest)))
  {
    assert ([op] + rest)[0] == op;
    assert ([op] + rest)[1..] == rest;
  }

  /** Running two call lists back to back is running the first, then -- if it passed --
      the second from where it left the filesystem. */
  lemma {:induction false} RunOpsAppend(fs: FS, b: Backend, xs: seq<Op>, ys: seq<Op>)
    ensures RunOps(fs, b, xs + ys) ==
      (var first := RunOps(fs, b, xs);
       if first.status.Fail? then first else Then(first, RunOps(first.fs, b, ys)))
    decreases |xs|
  {
    if xs == [] {
      assert xs + ys == ys;
    } else {
      var head := Apply(fs, b, xs[0]);
      assert (xs + ys)[0] == xs[0];
      assert (xs + ys)[1..] == xs[1..] + ys;
      if head.status.Pass? {
        RunOpsAppend(head.fs, b, xs[1..], ys);
        var rest := RunOps(head.fs, b, xs[1..]);
        if rest.status.Pass? {
          assert [xs[0]] + (rest.ops + RunOps(rest.fs, b, ys).ops) == ([xs[0]] + rest.ops) + RunOps(rest.fs, b, ys).ops;
        }
      }
    }
  }
}

=== FILE: hooks.dfy ===
/** The hook runners. `executeLocalCmd` (command_local.go) runs each command as a
    process in the given directory; `executeRemoteCmd` (command_remote.go) opens one ssh
    session per command and runs the command string in it. Both stop at the first
    failure. What a process or a session does, and whether it succeeds, is an oracle
    `ok: Invocation -> bool`; output is only logged and is not modelled. */
module Hooks {
  import opened GoStrings
  import opened Results

  /** One call into the outside world:
      - `Spawn`: `exec.Command(name, args...)` with `Dir` set, run to completion;
      - `OpenSession`: `client.NewSession()` for the command at `index`;
      - `Exec`: `session.CombinedOutput(cmd)` on the remote host, for the command at
        `index`; the same command run twice may succeed once and fail once. */
  datatype Invocation =
    | Spawn(dir: string, name: string, args: seq<string>)
    | OpenSession(index: nat)
    | Exec(index: nat, cmd: string)

  /** How a run of hooks ended, and the invocations it made, in order. */
  datatype HookRun = HookRun(status: Outcome<Invocation>, ran: seq<Invocation>)

  /** The process a local hook command starts: the command split on single spaces, the
      first piece the program and the rest its arguments. */
  function LocalCall(dir: string, cmd: string): (c: Invocation)
    ensures c.Spawn? && c.dir == dir
  {
    var parts := Split(cmd, ' ');
    Spawn(dir, parts[0], if |parts| > 1 then parts[1..] else [])
  }

  /** The program and its arguments hold no space, there is one argument per space in
      the command, and joining them back with single spaces gives the command: nothing
      is quoted, trimmed or merged. */
  lemma LocalCallSplits(dir: string, cmd: string)
    ensures var c := LocalCall(dir, cmd);
      && ' ' !in c.name
      && (forall i :: 0 <= i < |c.args| ==> ' ' !in c.args[i])
      && |c.args| == multiset(cmd)[' ']
      && Join([c.name] + c.args, ' ') == cmd
  {
    var parts := Split(cmd, ' ');
    SplitCount(cmd, ' ');
    JoinSplit(cmd, ' ');
    var c := LocalCall(dir, cmd);
    assert [c.name] + c.args == parts;
  }

  /** `executeLocalCmd(dir, cmds)`. */
  function RunLocal(dir: string, cmds: seq<string>, ok: Invocation -> bool): (r: HookRun)
    ensures r.status.Pass? <==> forall i :: 0 <= i < |cmds| ==> ok(LocalCall(dir, cmds[i]))
    ensures |r.ran| <= |cmds|
    ensures forall i :: 0 <= i < |r.ran| ==> r.ran[i] == LocalCall(dir, cmds[i])
    ensures r.status.Pass? ==> |r.ran| == |cmds|
    ensures r.status.Fail? ==>
      && |r.ran| > 0
      && r.status.error == r.ran[|r.ran| - 1]
      && !ok(r.status.error)
      && forall i :: 0 <= i < |r.ran| - 1 ==> ok(r.ran[i])
  {
    var calls := seq(|cmds|, i requires 0 <= i < |cmds| => LocalCall(dir, cmds[i]));
    assert forall i :: 0 <= i < |cmds| ==> calls[i] == LocalCall(dir, cmds[i]);
    RunCalls(calls, ok)
  }

  /** Makes the calls in order, stopping after the first that fails. */
  function RunCalls(calls: seq<Invocation>, ok: Invocation -> bool): (r: HookRun)
    ensures r.status.Pass? <==> forall i :: 0 <= i < |calls| ==> ok(calls[i])
    ensures r.ran <= calls
    ensures r.status.Pass? ==> r.ran == calls
    ensures r.status.Fail? ==>
      && |r.ran| > 0
      && r.status.error == r.ran[|r.ran| - 1]
      && !ok(r.status.error)
      && forall i :: 0 <= i < |r.ran| - 1 ==> ok(r.ran[i])
    decreases |calls|
  {
    if calls == [] then HookRun(Pass, [])
    else if !ok(calls[0]) then HookRun(Fail(calls[0]), [calls[0]])
    else
      var rest := RunCalls(calls[1..], ok);
      assert forall i :: 1 <= i < |calls| ==> calls[1..][i - 1] == calls[i];
      assert calls == [calls[0]] + calls[1..];
      HookRun(rest.status, [calls[0]] + rest.ran)
  }

  /** Every call `executeRemoteCmd` would make if nothing failed, from the command at
      `from` on: a new session, then the command in it, command after command. */
  function Schedule(cmds: seq<string>, from: nat): seq<Invocation>
    decreases |cmds| - from
  {
    if from >= |cmds| then []
    else [OpenSession(from), Exec(from, cmds[from])] + Schedule(cmds, from + 1)
  }

  /** The schedule pairs each command with its own session, in list order. */
  lemma {:induction false} ScheduleAt(cmds: seq<string>, from: nat)
    requires from <= |cmds|
    ensures |Schedule(cmds, from)| == 2 * (|cmds| - from)
    ensures forall i :: from <= i < |cmds| ==>
      && Schedule(cmds, from)[2 * (i - from)] == OpenSession(i)
      && Schedule(cmds, from)[2 * (i - from) + 1] == Exec(i, cmds[i])
    decreases |cmds| - from
  {
    if from < |cmds| {
      ScheduleAt(cmds, from + 1);
      var rest := Schedule(cmds, from + 1);
      forall i | from < i < |cmds|
        ensures Schedule(cmds, from)[2 * (i - from)] == OpenSession(i)
        ensures Schedule(cmds, from)[2 * (i - from) + 1] == Exec(i, cmds[i])
      {
        assert Schedule(cmds, from)[2 * (i - from)] == rest[2 * (i - from - 1)];
        assert Schedule(cmds, from)[2 * (i - from) + 1] == rest[2 * (i - from - 1) + 1];
      }
    }
  }

  /** `executeRemoteCmd(client, dir, cmds)`. `dir` appears only in a log line: the
      command string is run as it is, in the session's default directory. */
  function RunRemote(dir: string, cmds: seq<string>, ok: Invocation -> bool): (r: HookRun)
    ensures r.status.Pass? <==>
      forall i :: 0 <= i < |cmds| ==> ok(OpenSession(i)) && ok(Exec(i, cmds[i]))
    ensures r.ran <= Schedule(cmds, 0)
    ensures r.status.Pass? ==> r.ran == Schedule(cmds, 0)
    ensures r.status.Fail? ==>
      && |r.ran| > 0
      && r.status.error == r.ran[|r.ran| - 1]
      && !ok(r.status.error)
      && forall i :: 0 <= i < |r.ran| - 1 ==> ok(r.ran[i])
  {
    if |cmds| == 0 then HookRun(Pass, [])
    else RunSessions(cmds, 0, ok)
  }

  /** The loop of `executeRemoteCmd`, from the command at `from` on. */
  function RunSessions(cmds: seq<string>, from: nat, ok: Invocation -> bool): (r: HookRun)
    requires from <= |cmds|
    ensures r.status.Pass? <==>
      forall i :: from <= i < |cmds| ==> ok(OpenSession(i)) && ok(Exec(i, cmds[i]))
    ensures r.ran <= Schedule(cmds, from)
    ensures r.status.Pass? ==> r.ran == Schedule(cmds, from)
    ensures r.status.Fail? ==>
      && |r.ran| > 0
      && r.status.error == r.ran[|r.ran| - 1]
      && !ok(r.status.error)
      && forall i :: 0 <= i < |r.ran| - 1 ==> ok(r.ran[i])
    decreases |cmds| - from
  {
    if from == |cmds| then HookRun(Pass, [])
    else if !ok(OpenSession(from)) then HookRun(Fail(OpenSession(from)), [OpenSession(from)])
    else if !ok(Exec(from, cmds[from])) then HookRun(Fail(Exec(from, cmds[from])), [OpenSession(from), Exec(from, cmds[from])])
    else
      var rest := RunSessions(cmds, from + 1, ok);
      HookRun(rest.status, [OpenSession(from), Exec(from, cmds[from])] + rest.ran)
  }

  /** A command listed twice runs twice, and the second run can fail after the first
      passed: the run stops at the second `Exec`. */
  lemma RepeatedCommandCanFail(dir: string, cmd: string)
    ensures var ok := (c: Invocation) => c != Exec(1, cmd);
      var r := RunRemote(dir, [cmd, cmd], ok);
      && ok(Exec(0, cmd))
      && r.status == Fail(Exec(1, cmd))
      && r.ran == [OpenSession(0), Exec(0, cmd), OpenSession(1), Exec(1, cmd)]
  {
    var ok := (c: Invocation) => c != Exec(1, cmd);
    var cmds := [cmd, cmd];
    var second := RunSessions(cmds, 1, ok);
    assert second == HookRun(Fail(Exec(1, cmd)), [OpenSession(1), Exec(1, cmd)]);
    assert RunSessions(cmds, 0, ok) == HookRun(second.status, [OpenSession(0), Exec(0, cmd)] + second.ran);
  }

  /** Where the remote hooks are said to run makes no difference to what runs. */
  lemma RemoteIgnoresDir(d1: string, d2: string, cmds: seq<string>, ok: Invocation -> bool)
    ensures RunRemote(d1, cmds, ok) == RunRemote(d2, cmds, ok)
  {
  }
}

=== FILE: promotion.dfy ===
/** Promotion of the new release: `symlinkLocal` (command.go, command_local.go) and
    `symlinkReleaseSFTP` (command.go, command_remote.go). The old `current` is removed,
    and the error of that removal is thrown away; then `current` is created as a symbolic
    link to the release, and only the result of that call is returned. The two calls are
    separate, so a failed promotion can leave no `current` at all. */
module Promotion {
  import opened Results
  import opened FileSystem

  /** `symlinkLocal(link, target)` / `symlinkReleaseSFTP(client, link, target)`. */
  function Promote(fs: FS, b: Backend, link: Path, target: Path): (e: Effect)
    ensures Coherent(e)
    ensures e.ops == [Remove(link), Symlink(link, target)]
    ensures e.status.Pass? <==>
      && !b.fault(Symlink(link, target))
      && ParentIsDir(fs, link)
      && (link in fs ==> !b.fault(Remove(link)) && !HasDescendants(fs, link))
    ensures e.status.Pass? ==> e.fs == fs[link := Link(target)]
    ensures e.status.Fail? ==> e.fs == fs || e.fs == fs - {link}
    ensures forall k :: k != link ==> Untouched(fs, e.fs, k)
  {
    var rm := Apply(fs, b, Remove(link));
    var ln := Apply(rm.fs, b, Symlink(link, target));
    assert ParentIsDir(rm.fs, link) <==> ParentIsDir(fs, link) by {
      if |link| > 0 {
        assert link[..|link| - 1] != link;
      }
    }
    assert rm.status.Pass? ==> rm.fs[link := Link(target)] == fs[link := Link(target)];
    Effect(ln.status, ln.fs, rm.ops + ln.ops)
  }

  /** The replacement is not atomic: when the symlink call fails after the removal went
      through, the deployment is left with no `current` at all. */
  lemma PromoteNotAtomic(fs: FS, b: Backend, link: Path, target: Path)
    requires link in fs && fs[link].Link? && !HasDescendants(fs, link)
    requires !b.fault(Remove(link)) && b.fault(Symlink(link, target))
    ensures Promote(fs, b, link, target).status.Fail?
    ensures link !in Promote(fs, b, link, target).fs
  {
  }

  /** A real directory with content in the way of `current` blocks the promotion, and
      nothing changes. */
  lemma PromoteBlocked(fs: FS, b: Backend, link: Path, target: Path)
    requires link in fs && HasDescendants(fs, link)
    ensures Promote(fs, b, link, target).status.Fail?
    ensures Promote(fs, b, link, target).fs == fs
  {
  }
}

=== FILE: releases.dfy ===
/** Pruning of old releases: `deleteOldReleases` (command.go, command_local.go) and
    `deleteOldReleasesSFTP` (command.go, command_remote.go).

    The releases directory is listed and the entries are sorted by plain string order.
    Then `for i := 0; len(dirs) > keep+i; i++` deletes `dirs[i]`: the `len - keep`
    smallest entries, in ascending order. The first failed deletion aborts the prune.
    The local variant deletes an entry with one `os.RemoveAll`, the remote one with the
    `removeAllSFTP` walk.

    Go sorts the joined paths `dir/name`. Every one of them starts with the same
    `dir/`, so by `GoStrings.BelowCommonPrefix` they sort exactly as the bare names do;
    the model sorts the names. */
module Releases {
  import opened GoStrings
  import opened Sorting
  import opened Results
  import opened FileSystem
  import opened Remover

  /** How one old release is deleted. */
  datatype Deleter = LocalRemoveAll | SftpWalk

  /** The entries the loop deletes: the first `len - keep` of the sorted listing, none
      when there are no more than `keep`. */
  function Victims(names: seq<string>, keep: nat): (vs: seq<string>)
  {
    var sorted := Sort(names);
    sorted[..|sorted| - Min(|sorted|, keep)]
  }

  /** Deleting one entry with `os.RemoveAll` or `removeAllSFTP`. */
  function RemoveOne(fs: FS, b: Backend, p: Path, d: Deleter): (e: Effect)
    ensures Coherent(e)
    ensures OnlyDeletes(fs, e.fs)
    ensures forall k :: k in fs && !(p <= k) ==> k in e.fs
    ensures e.status.Pass? ==> forall k :: k in e.fs ==> !(p <= k)
  {
    match d
    case LocalRemoveAll => Apply(fs, b, RemoveAll(p))
    case SftpWalk => RemoveTree(fs, b, p)
  }

  /** The deletion loop over the victims, stopping at the first failure. */
  function RemoveVictims(fs: FS, b: Backend, dir: Path, vs: seq<string>, d: Deleter): (e: Effect)
    ensures Coherent(e)
    ensures OnlyDeletes(fs, e.fs)
    ensures forall k :: k in fs && !(dir < k && k[|dir|] in vs) ==> k in e.fs
    ensures e.status.Pass? ==> forall k :: k in e.fs && dir < k ==> k[|dir|] !in vs
    decreases |vs|
  {
    if vs == [] then Effect(Pass, fs, [])
    else
      var first := RemoveOne(fs, b, dir + [vs[0]], d);
      EntryFrame(fs, first.fs, dir, vs);
      if first.status.Fail? then first
      else
        var rest := RemoveVictims(first.fs, b, dir, vs[1..], d);
        EntriesFrame(fs, first.fs, rest.fs, dir, vs, rest.status.Pass?);
        Then(first, rest)
  }

  /** `deleteOldReleases(dir, keep)` / `deleteOldReleasesSFTP(client, dir, keep)`. */
  function Prune(fs: FS, b: Backend, dir: Path, keep: nat, d: Deleter): (e: Effect)
    ensures Coherent(e)
    ensures |e.ops| > 0 && e.ops[0] == ReadDir(dir)
    ensures OnlyDeletes(fs, e.fs)
    ensures forall k :: k in fs && !(dir < k && k[|dir|] !in Retain(Children(fs, dir), keep)) ==> k in e.fs
    ensures e.status.Pass? ==> Children(e.fs, dir) == Retain(Children(fs, dir), keep)
    ensures e.status.Pass? ==> |Children(e.fs, dir)| == Min(|Children(fs, dir)|, keep)
    ensures |Children(fs, dir)| <= keep ==> e.fs == fs
  {
    var ls := Apply(fs, b, ReadDir(dir));
    if ls.status.Fail? then ls
    else
      var vs := Victims(ListDir(fs, dir), keep);
      var rest := RemoveVictims(fs, b, dir, vs, d);
      PruneSelects(fs, rest.fs, dir, keep, rest.status.Pass?);
      Then(ls, rest)
  }

  /** Sorting a listing changes nothing: it is already in ascending order. */
  lemma SortListing(fs: FS, dir: Path)
    ensures Sort(ListDir(fs, dir)) == ListDir(fs, dir)
  {
    var names := ListDir(fs, dir);
    SortedUnique(Sort(names), names);
  }

  /** The victims of a listing are its front, up to the last `keep` names. */
  lemma ListingVictims(fs: FS, dir: Path, keep: nat)
    ensures var names := ListDir(fs, dir);
      Victims(names, keep) == names[..|names| - Min(|names|, keep)]
    ensures Elems(ListDir(fs, dir)) == Children(fs, dir)
  {
    SortListing(fs, dir);
  }

  /** The victims of a listing are the names retention drops, and the survivors are the
      names it keeps. */
  lemma VictimsComplement(fs: FS, dir: Path, keep: nat)
    ensures var names := ListDir(fs, dir);
      forall n :: n in Victims(names, keep) <==> n in Children(fs, dir) && n !in Retain(Children(fs, dir), keep)
    ensures |Children(fs, dir)| <= keep ==> Victims(ListDir(fs, dir), keep) == []
  {
    var names := ListDir(fs, dir);
    ListingVictims(fs, dir, keep);
    var cut := |names| - Min(|names|, keep);
    RetainSuffix(names, keep);
    FrontComplement(names, cut);
  }

  /** In a sequence of distinct names, the front holds exactly the names not in the back. */
  lemma FrontComplement(names: seq<string>, cut: int)
    requires StrictlySorted(names) && 0 <= cut <= |names|
    ensures forall n :: n in names[..cut] <==> n in Elems(names) && n !in Elems(names[cut..])
  {
    StrictlySortedDistinct(names);
    assert forall i :: 0 <= i < cut ==> names[..cut][i] == names[i];
    assert forall j :: 0 <= j < |names| - cut ==> names[cut..][j] == names[cut + j];
    forall n | n in Elems(names) && n !in Elems(names[cut..]) ensures n in names[..cut] {
      var i :| 0 <= i < |names| && names[i] == n;
      assert names[..cut][i] == n;
    }
  }

  /** The loop deletes in ascending order, and every entry it deletes sorts below every
      entry it keeps. */
  lemma VictimsOldest(fs: FS, dir: Path, keep: nat)
    ensures StrictlySorted(Victims(ListDir(fs, dir), keep))
    ensures forall v, w :: v in Victims(ListDir(fs, dir), keep) && w in Retain(Children(fs, dir), keep) ==> Below(v, w)
  {
    var names := ListDir(fs, dir);
    ListingVictims(fs, dir, keep);
    RetainSuffix(names, keep);
    SortedCut(names, |names| - Min(|names|, keep));
  }

  /** What the loop over the victims leaves behind is the retention of the listing. */
  lemma PruneSelects(fs: FS, f2: FS, dir: Path, keep: nat, passed: bool)
    requires OnlyDeletes(fs, f2)
    requires forall k :: k in fs && !(dir < k && k[|dir|] in Victims(ListDir(fs, dir), keep)) ==> k in f2
    requires passed ==> forall k :: k in f2 && dir < k ==> k[|dir|] !in Victims(ListDir(fs, dir), keep)
    ensures forall k :: k in fs && !(dir < k && k[|dir|] !in Retain(Children(fs, dir), keep)) ==> k in f2
    ensures passed ==> Children(f2, dir) == Retain(Children(fs, dir), keep)
    ensures passed ==> |Children(f2, dir)| == Min(|Children(fs, dir)|, keep)
    ensures |Children(fs, dir)| <= keep ==> f2 == fs
  {
    var vs := Victims(ListDir(fs, dir), keep);
    var kept := Retain(Children(fs, dir), keep);
    VictimsComplement(fs, dir, keep);
    assert forall k :: k in fs && !(dir < k && k[|dir|] !in kept) ==> k in f2;
    if passed {
      forall n | n in Children(f2, dir) ensures n in kept {
        ChildIn(f2, dir, n);
        assert (dir + [n])[|dir|] == n;
        assert n in Children(fs, dir) by {
          assert dir + [n] in fs;
        }
      }
      forall n | n in kept ensures n in Children(f2, dir) {
        ChildIn(fs, dir, n);
        assert (dir + [n])[|dir|] == n;
        assert dir + [n] in f2;
      }
      RetainSize(Children(fs, dir), keep);
    }
    if |Children(fs, dir)| <= keep {
      assert vs == [];
      assert f2 == fs;
    }
  }

  /** A second prune with the same `keep` after one that succeeded deletes nothing,
      whatever happens to its own calls: pruning is idempotent. */
  lemma PruneIdempotent(fs: FS, b: Backend, b': Backend, dir: Path, keep: nat, d: Deleter, d': Deleter)
    requires Prune(fs, b, dir, keep, d).status.Pass?
    ensures var once := Prune(fs, b, dir, keep, d).fs;
      Prune(once, b', dir, keep, d').fs == once
  {
  }

  /** A prune that fails part-way has deleted every victim before the failing one
      completely, and left every victim after it untouched. */
  lemma {:induction false} PruneAbort(fs: FS, b: Backend, dir: Path, vs: seq<string>, d: Deleter) returns (j: nat)
    requires Distinct(vs)
    requires RemoveVictims(fs, b, dir, vs, d).status.Fail?
    ensures j < |vs|
    ensures var e := RemoveVictims(fs, b, dir, vs, d);
      forall i, k :: 0 <= i < j && k in e.fs ==> !(dir + [vs[i]] <= k)
    ensures var e := RemoveVictims(fs, b, dir, vs, d);
      forall i, k :: j < i < |vs| && k in fs && dir + [vs[i]] <= k ==> k in e.fs && e.fs[k] == fs[k]
    decreases |vs|
  {
    var first := RemoveOne(fs, b, dir + [vs[0]], d);
    var e := RemoveVictims(fs, b, dir, vs, d);
    if first.status.Fail? {
      assert e == first;
      j := 0;
      forall i, k | 0 < i < |vs| && k in fs && dir + [vs[i]] <= k ensures k in e.fs && e.fs[k] == fs[k] {
        SiblingsApart(dir, vs[i], vs[0], k);
      }
    } else {
      var rest := RemoveVictims(first.fs, b, dir, vs[1..], d);
      assert e.fs == rest.fs;
      assert Distinct(vs[1..]);
      var j' := PruneAbort(first.fs, b, dir, vs[1..], d);
      j := j' + 1;
      AbortShift(fs, first.fs, e.fs, dir, vs, j');
    }
  }

  /** An entry and everything under it lies outside every other entry. */
  lemma SiblingsApart(dir: Path, x: string, y: string, k: Path)
    requires x != y && dir + [x] <= k
    ensures !(dir + [y] <= k)
  {
    assert k[|dir|] == x;
  }

  /** The step of `PruneAbort`: what the rest of the loop did to the victims after the
      first, seen from before the first deletion. */
  lemma AbortShift(fs: FS, f1: FS, f2: FS, dir: Path, vs: seq<string>, j': nat)
    requires Distinct(vs) && j' + 1 < |vs|
    requires OnlyDeletes(fs, f1) && OnlyDeletes(f1, f2)
    requires forall k :: k in fs && !(dir + [vs[0]] <= k) ==> k in f1
    requires forall k :: k in f1 ==> !(dir + [vs[0]] <= k)
    requires forall i, k :: 0 <= i < j' && k in f2 ==> !(dir + [vs[1..][i]] <= k)
    requires forall i, k :: j' < i < |vs[1..]| && k in f1 && dir + [vs[1..][i]] <= k ==> k in f2 && f2[k] == f1[k]
    ensures forall i, k :: 0 <= i < j' + 1 && k in f2 ==> !(dir + [vs[i]] <= k)
    ensures forall i, k :: j' + 1 < i < |vs| && k in fs && dir + [vs[i]] <= k ==> k in f2 && f2[k] == fs[k]
  {
    forall i, k | 0 <= i < j' + 1 && k in f2 ensures !(dir + [vs[i]] <= k) {
      if i > 0 {
        assert vs[1..][i - 1] == vs[i];
      }
    }
    forall i, k | j' + 1 < i < |vs| && k in fs && dir + [vs[i]] <= k ensures k in f2 && f2[k] == fs[k] {
      assert vs[1..][i - 1] == vs[i];
      SiblingsApart(dir, vs[i], vs[0], k);
    }
  }

  /** The loop `for i := 0; len(dirs) > keep+i; i++` as written, on Go `int`s: the
      indices of `dirs` it reads, from `i` on. */
  function LoopIndices(n: nat, keep: int, i: nat): (ix: seq<int>)
    decreases n - keep - i
  {
    if n > keep + i then [i] + LoopIndices(n, keep, i + 1) else []
  }

  /** With `keep >= 0` the loop reads exactly the indices `0 .. n - keep - 1`, all within
      the slice. */
  lemma {:induction false} LoopIndicesInRange(n: nat, keep: int, i: nat)
    requires keep >= 0
    ensures forall x :: x in LoopIndices(n, keep, i) <==> i <= x < n - keep
    ensures forall x :: x in LoopIndices(n, keep, i) ==> 0 <= x < n
    decreases n - keep - i
  {
    if n > keep + i {
      LoopIndicesInRange(n, keep, i + 1);
    }
  }

  /** With `keep >= 0`, from `i` on the loop reads the consecutive indices `i`, `i + 1`,
      ... up to `n - keep - 1`. */
  lemma {:induction false} LoopIndicesFrom(n: nat, keep: nat, i: nat)
    ensures |LoopIndices(n, keep, i)| == if n > keep + i then n - keep - i else 0
    ensures forall k :: 0 <= k < |LoopIndices(n, keep, i)| ==> LoopIndices(n, keep, i)[k] == i + k
    decreases n - keep - i
  {
    if n > keep + i {
      LoopIndicesFrom(n, keep, i + 1);
      var ix := LoopIndices(n, keep, i);
      assert forall k :: 1 <= k < |ix| ==> ix[k] == LoopIndices(n, keep, i + 1)[k - 1];
    }
  }

  /** The loop as written deletes, in order, exactly the victims: the `k`-th index it
      reads names `Victims(names, keep)[k]` in the sorted listing. */
  lemma LoopDeletesVictims(names: seq<string>, keep: nat)
    ensures var sorted := Sort(names);
      var ix := LoopIndices(|sorted|, keep, 0);
      && |ix| == |Victims(names, keep)|
      && forall k :: 0 <= k < |ix| ==> 0 <= ix[k] < |sorted| && sorted[ix[k]] == Victims(names, keep)[k]
  {
    LoopIndicesFrom(|Sort(names)|, keep, 0);
  }

  /** With a negative `keep` the loop reads `dirs[n]`, one past the end: every release,
      the new one included, is deleted first, and then the index panics. */
  lemma {:induction false} NegativeKeepOverruns(n: nat, keep: int, i: nat)
    requires keep < 0 && i <= n
    ensures n in LoopIndices(n, keep, i)
    ensures forall x :: i <= x < n ==> x in LoopIndices(n, keep, i)
    decreases n - keep - i
  {
    if i < n {
      NegativeKeepOverruns(n, keep, i + 1);
    }
  }
}

=== FILE: remover.dfy ===
/** `removeAllSFTP` (command.go, command_remote.go): the recursive delete the remote prune
    runs on each old release. The path is stat-ed first, so a missing path is an error. A
    directory is listed and each entry removed in listing order before the directory
    itself (post-order); anything else is removed directly. The first failure aborts the
    walk, and what was deleted before it stays deleted. */
module Remover {
  import opened Sorting
  import opened Results
  import opened FileSystem

  /** The paths at or under `p`. */
  function Under(fs: FS, p: Path): set<Path>
  {
    set k | k in fs && p <= k
  }

  /** The paths strictly under `p`. */
  function StrictlyUnder(fs: FS, p: Path): set<Path>
  {
    set k | k in fs && p < k
  }

  /** `fs'` is `fs` with some paths deleted and nothing else changed. */
  predicate OnlyDeletes(fs: FS, fs': FS)
  {
    forall k :: k in fs' ==> k in fs && fs'[k] == fs[k]
  }

  lemma ProperSubsetCard(a: set<Path>, b: set<Path>, x: Path)
    requires a <= b && x in b && x !in a
    ensures |a| < |b|
  {
    assert a <= b - {x};
    SubsetCard(a, b - {x});
  }

  /** `removeAllSFTP(p)`. */
  function RemoveTree(fs: FS, b: Backend, p: Path): (e: Effect)
    ensures Coherent(e)
    ensures |e.ops| > 0 && e.ops[0] == Stat(p)
    ensures OnlyDeletes(fs, e.fs)
    ensures forall k :: k in fs && !(p <= k) ==> k in e.fs
    ensures p !in fs ==> e == Effect(Fail(Stat(p)), fs, [Stat(p)])
    ensures e.status.Pass? ==> p in fs && forall k :: k in e.fs ==> !(p <= k)
    ensures e.status.Pass? ==> e.ops[|e.ops| - 1] == Remove(p)
    decreases |Under(fs, p)|, 0, 1
  {
    var st := Apply(fs, b, Stat(p));
    if st.status.Fail? then st
    else if fs[p].Dir? then
      var rest := RemoveDir(fs, b, p);
      assert (st.ops + rest.ops)[|st.ops + rest.ops| - 1] == rest.ops[|rest.ops| - 1];
      Then(st, rest)
    else
      var rm := Apply(fs, b, Remove(p));
      RemoveLast(fs, fs, rm, b, p);
      Then(st, rm)
  }

  /** The directory branch of `removeAllSFTP(p)`: list `p`, remove each entry, then `p`. */
  function RemoveDir(fs: FS, b: Backend, p: Path): (e: Effect)
    ensures Coherent(e)
    ensures |e.ops| > 0 && e.ops[0] == ReadDir(p)
    ensures OnlyDeletes(fs, e.fs)
    ensures forall k :: k in fs && !(p <= k) ==> k in e.fs
    ensures e.status.Pass? ==> forall k :: k in e.fs ==> !(p <= k)
    ensures e.status.Pass? ==> e.ops[|e.ops| - 1] == Remove(p)
    decreases |Under(fs, p)|, 0, 0
  {
    var ls := Apply(fs, b, ReadDir(p));
    if ls.status.Fail? then ls
    else
      ProperSubsetCard(StrictlyUnder(fs, p), Under(fs, p), p);
      var kids := RemoveEach(fs, b, p, ListDir(fs, p));
      UnderFrame(fs, kids.fs, p, ListDir(fs, p));
      if kids.status.Fail? then Then(ls, kids)
      else
        var rm := Apply(kids.fs, b, Remove(p));
        RemoveLast(fs, kids.fs, rm, b, p);
        Then(ls, Then(kids, rm))
  }

  /** Deleting among the entries of `p` keeps to the paths under `p`. */
  lemma UnderFrame(fs: FS, f2: FS, p: Path, names: seq<string>)
    requires forall k :: k in fs && !(p < k && k[|p|] in names) ==> k in f2
    ensures forall k :: k in fs && !(p <= k) ==> k in f2
  {
  }

  /** The final `Remove(p)` of the walk: it passes only once nothing is left under `p`. */
  lemma RemoveLast(fs: FS, f2: FS, rm: Effect, b: Backend, p: Path)
    requires OnlyDeletes(fs, f2)
    requires forall k :: k in fs && !(p <= k) ==> k in f2
    requires rm == Apply(f2, b, Remove(p))
    ensures OnlyDeletes(fs, rm.fs)
    ensures forall k :: k in fs && !(p <= k) ==> k in rm.fs
    ensures rm.status.Pass? ==> forall k :: k in rm.fs ==> !(p <= k)
  {
    if rm.status.Pass? {
      forall k | k in rm.fs ensures !(p <= k) {
        assert k in f2 && k != p;
      }
    }
  }

  /** The loop of `removeAllSFTP` over the entries `names` of the directory `p`. */
  function RemoveEach(fs: FS, b: Backend, p: Path, names: seq<string>): (e: Effect)
    ensures Coherent(e)
    ensures OnlyDeletes(fs, e.fs)
    ensures forall k :: k in fs && !(p < k && k[|p|] in names) ==> k in e.fs
    ensures e.status.Pass? ==> forall k :: k in e.fs && p < k ==> k[|p|] !in names
    decreases |StrictlyUnder(fs, p)|, 1, |names|
  {
    if names == [] then Effect(Pass, fs, [])
    else
      var here := p + [names[0]];
      EntryCard(fs, p, names[0]);
      var first := RemoveTree(fs, b, here);
      EntryFrame(fs, first.fs, p, names);
      if first.status.Fail? then first
      else
        DeletesCard(fs, first.fs, p);
        var rest := RemoveEach(first.fs, b, p, names[1..]);
        EntriesFrame(fs, first.fs, rest.fs, p, names, rest.status.Pass?);
        Then(first, rest)
  }

  /** An entry of `p` has no more paths under it than `p` has strictly under it. */
  lemma EntryCard(fs: FS, p: Path, n: string)
    ensures |Under(fs, p + [n])| <= |StrictlyUnder(fs, p)|
  {
    forall k | k in Under(fs, p + [n]) ensures k in StrictlyUnder(fs, p) {
      assert k[..|p|] == p;
    }
    SubsetCard(Under(fs, p + [n]), StrictlyUnder(fs, p));
  }

  /** Deleting never adds paths under `p`. */
  lemma DeletesCard(fs: FS, f1: FS, p: Path)
    requires OnlyDeletes(fs, f1)
    ensures |StrictlyUnder(f1, p)| <= |StrictlyUnder(fs, p)|
  {
    SubsetCard(StrictlyUnder(f1, p), StrictlyUnder(fs, p));
  }

  /** Removing the first entry keeps to the entries named. */
  lemma EntryFrame(fs: FS, f1: FS, p: Path, names: seq<string>)
    requires names != []
    requires forall k :: k in fs && !(p + [names[0]] <= k) ==> k in f1
    ensures forall k :: k in fs && !(p < k && k[|p|] in names) ==> k in f1
  {
    forall k | k in fs && !(p < k && k[|p|] in names) ensures k in f1 {
      assert !(p + [names[0]] <= k);
    }
  }

  /** Removing the first entry and then the rest removes them all. */
  lemma EntriesFrame(fs: FS, f1: FS, f2: FS, p: Path, names: seq<string>, passed: bool)
    requires names != []
    requires OnlyDeletes(fs, f1) && OnlyDeletes(f1, f2)
    requires forall k :: k in fs && !(p < k && k[|p|] in names) ==> k in f1
    requires forall k :: k in f1 ==> !(p + [names[0]] <= k)
    requires forall k :: k in f1 && !(p < k && k[|p|] in names[1..]) ==> k in f2
    requires passed ==> forall k :: k in f2 && p < k ==> k[|p|] !in names[1..]
    ensures OnlyDeletes(fs, f2)
    ensures forall k :: k in fs && !(p < k && k[|p|] in names) ==> k in f2
    ensures passed ==> forall k :: k in f2 && p < k ==> k[|p|] !in names
  {
    assert forall i :: 0 <= i < |names[1..]| ==> names[1..][i] == names[i + 1];
    forall k | k in fs && !(p < k && k[|p|] in names) ensures k in f2 {
      assert k in f1;
    }
    if passed {
      forall k | k in f2 && p < k ensures k[|p|] !in names {
        assert k in f1;
        assert k[..|p| + 1] == p + [k[|p|]];
        assert names == [names[0]] + names[1..];
      }
    }
  }

  /** Every path's parent is a directory in the filesystem: the shape of any real one. */
  predicate Rooted(fs: FS)
  {
    forall k :: k in fs && |k| > 0 ==> k[..|k| - 1] in fs && fs[k[..|k| - 1]].Dir?
  }

  /** A backend on which no call fails for reasons outside the model. */
  ghost predicate Reliable(b: Backend)
  {
    forall op :: !b.fault(op)
  }

  /** In a rooted filesystem every path strictly under `p` passes through an entry of
      `p`, and `p` is a directory. */
  lemma {:induction false} EntryOf(fs: FS, p: Path, k: Path)
    requires Rooted(fs) && k in fs && p < k
    ensures p + [k[|p|]] in fs && p in fs && fs[p].Dir?
    decreases |k|
  {
    var parent := k[..|k| - 1];
    if |k| == |p| + 1 {
      assert k == p + [k[|p|]];
      assert parent == p;
    } else {
      assert p < parent;
      EntryOf(fs, p, parent);
      assert parent[|p|] == k[|p|];
    }
  }

  /** Deleting everything under one path keeps a filesystem rooted. */
  lemma CutRooted(fs: FS, fs': FS, q: Path)
    requires Rooted(fs)
    requires OnlyDeletes(fs, fs')
    requires forall k :: k in fs && !(q <= k) ==> k in fs'
    requires forall k :: k in fs' ==> !(q <= k)
    ensures Rooted(fs')
  {
    forall k | k in fs' && |k| > 0 ensures k[..|k| - 1] in fs' && fs'[k[..|k| - 1]].Dir? {
      var parent := k[..|k| - 1];
    }
  }

  /** On a reliable backend and a rooted filesystem the walk removes exactly what
      `os.RemoveAll` would: it succeeds whenever `p` exists, and then it has deleted `p`
      and everything under it and nothing else. */
  lemma {:induction false} RemoveTreeComplete(fs: FS, b: Backend, p: Path)
    requires Reliable(b) && Rooted(fs) && p in fs
    ensures RemoveTree(fs, b, p).status.Pass?
    ensures RemoveTree(fs, b, p).fs == Perform(fs, RemoveAll(p), b)
    decreases |Under(fs, p)|, 0, 1
  {
    var e := RemoveTree(fs, b, p);
    if fs[p].Dir? {
      DirectoryComplete(fs, b, p);
      assert e == Then(Apply(fs, b, Stat(p)), RemoveDir(fs, b, p));
    } else {
      forall k | k in fs ensures !(p < k) {
        if p < k {
          EntryOf(fs, p, k);
        }
      }
      var rm := Apply(fs, b, Remove(p));
      assert rm.status.Pass?;
      assert e == Then(Apply(fs, b, Stat(p)), rm);
    }
    RemovedAll(fs, e.fs, b, p);
  }

  /** The directory case of `RemoveTreeComplete`. */
  lemma {:induction false} DirectoryComplete(fs: FS, b: Backend, p: Path)
    requires Reliable(b) && Rooted(fs) && p in fs && fs[p].Dir?
    ensures RemoveDir(fs, b, p).status.Pass?
    decreases |Under(fs, p)|, 0, 0
  {
    var ls := Apply(fs, b, ReadDir(p));
    assert ls.status.Pass?;
    ProperSubsetCard(StrictlyUnder(fs, p), Under(fs, p), p);
    var names := ListDir(fs, p);
    EntriesExist(fs, p);
    RemoveEachComplete(fs, b, p, names);
    EmptiedRemovable(fs, b, p);
  }

  /** Once its entries are gone, a reliable backend removes the directory itself. */
  lemma EmptiedRemovable(fs: FS, b: Backend, p: Path)
    requires Reliable(b) && p in fs
    requires Rooted(RemoveEach(fs, b, p, ListDir(fs, p)).fs)
    requires RemoveEach(fs, b, p, ListDir(fs, p)).status.Pass?
    ensures Apply(RemoveEach(fs, b, p, ListDir(fs, p)).fs, b, Remove(p)).status.Pass?
  {
    var kids := RemoveEach(fs, b, p, ListDir(fs, p));
    EntriesGone(fs, kids.fs, p);
    assert p in kids.fs;
    assert !b.fault(Remove(p));
  }

  /** The names listed for `p` are distinct and name existing entries. */
  lemma EntriesExist(fs: FS, p: Path)
    ensures Distinct(ListDir(fs, p))
    ensures forall i :: 0 <= i < |ListDir(fs, p)| ==> p + [ListDir(fs, p)[i]] in fs
  {
    var names := ListDir(fs, p);
    StrictlySortedDistinct(names);
    forall i | 0 <= i < |names| ensures p + [names[i]] in fs {
      ChildIn(fs, p, names[i]);
    }
  }

  /** Once every entry of `p` is gone, so is everything strictly under `p`. */
  lemma EntriesGone(fs: FS, f2: FS, p: Path)
    requires Rooted(f2)
    requires forall k :: k in f2 && p < k ==> k[|p|] !in ListDir(fs, p)
    requires OnlyDeletes(fs, f2)
    ensures !HasDescendants(f2, p)
  {
    forall k | k in f2 ensures !(p < k) {
      if p < k {
        EntryOf(f2, p, k);
      }
    }
  }

  /** A walk that passed has deleted exactly what `os.RemoveAll` deletes. */
  lemma RemovedAll(fs: FS, f2: FS, b: Backend, p: Path)
    requires OnlyDeletes(fs, f2)
    requires forall k :: k in fs && !(p <= k) ==> k in f2
    requires forall k :: k in f2 ==> !(p <= k)
    ensures f2 == Perform(fs, RemoveAll(p), b)
  {
  }

  /** Removing distinct existing entries of `p` one by one succeeds on a reliable backend,
      and leaves the filesystem rooted. */
  lemma {:induction false} RemoveEachComplete(fs: FS, b: Backend, p: Path, names: seq<string>)
    requires Reliable(b) && Rooted(fs)
    requires Distinct(names)
    requires forall i :: 0 <= i < |names| ==> p + [names[i]] in fs
    ensures RemoveEach(fs, b, p, names).status.Pass?
    ensures Rooted(RemoveEach(fs, b, p, names).fs)
    decreases |StrictlyUnder(fs, p)|, 1, |names|
  {
    if names != [] {
      var here := p + [names[0]];
      assert Under(fs, here) <= StrictlyUnder(fs, p) by {
        forall k | k in Under(fs, here) ensures k in StrictlyUnder(fs, p) {
          assert k[..|p|] == p;
        }
      }
      SubsetCard(Under(fs, here), StrictlyUnder(fs, p));
      RemoveTreeComplete(fs, b, here);
      var first := RemoveTree(fs, b, here);
      CutRooted(fs, first.fs, here);
      assert StrictlyUnder(first.fs, p) <= StrictlyUnder(fs, p);
      SubsetCard(StrictlyUnder(first.fs, p), StrictlyUnder(fs, p));
      forall i | 0 <= i < |names[1..]| ensures p + [names[1..][i]] in first.fs {
        assert names[1..][i] == names[i + 1] != names[0];
        var q := p + [names[i + 1]];
        assert q in fs && q[|p|] != here[|p|];
      }
      RemoveEachComplete(first.fs, b, p, names[1..]);
    }
  }
}

=== FILE: results.dfy ===
/** Failure-carrying values shared by every module of the deploy model.
    - Option<T>: a value that may be absent (a source tree that cannot be stat'ed).
    - Result<T, E>: a computed value or an error (destination parsing).
    - Outcome<E>: success, or the error that stopped a sequence of steps. */
module Results {

  datatype Option<+T> = None | Some(value: T)

  datatype Result<+T, +E> = Ok(value: T) | Err(error: E) {
    predicate IsFailure() {
      Err?
    }

    function PropagateFailure<U>(): Result<U, E>
      requires Err?
    {
      Err(error)
    }

    function Extract(): T
      requires Ok?
    {
      value
    }
  }

  datatype Outcome<+E> = Pass | Fail(error: E)
}

=== FILE: scenarios.dfy ===
/** Concrete instances of the general properties, on the kind of values a `pasang.json`
    holds. */
module Scenarios {
  import opened Results
  import opened GoStrings
  import opened Sorting
  import opened Destination
  import opened FileSystem
  import opened Releases

  /** A destination with a port gives the user, `host:port` and the directory. */
  lemma DestinationWithPort()
    ensures ParseDest("deploy@10.0.0.5:2222:/srv/app") == Ok(Remote("deploy", "10.0.0.5:2222", "/srv/app"))
  {
    assert Render("deploy", "10.0.0.5", Some("2222"), "/srv/app") == "deploy@10.0.0.5:2222:/srv/app";
    assert Address("10.0.0.5", Some("2222")) == "10.0.0.5:2222";
    ParseRender("deploy", "10.0.0.5", Some("2222"), "/srv/app");
  }

  /** Without a port the address gets port 22. */
  lemma DestinationDefaultPort()
    ensures ParseDest("deploy@example.org:/srv/app") == Ok(Remote("deploy", "example.org:22", "/srv/app"))
  {
    assert Render("deploy", "example.org", None, "/srv/app") == "deploy@example.org:/srv/app";
    assert Address("example.org", None) == "example.org:22";
    ParseRender("deploy", "example.org", None, "/srv/app");
  }

  /** Three releases and `keep` 2: the oldest goes. */
  lemma KeepTwoOfThree()
    ensures Retain({"100", "200", "300"}, 2) == {"200", "300"}
  {
    var s := ["100", "200", "300"];
    ThreeAscending();
    assert Elems(s) == {"100", "200", "300"};
    RetainSuffix(s, 2);
    assert s[1..] == ["200", "300"];
    assert Elems(["200", "300"]) == {"200", "300"};
  }

  /** The same through the prune itself: it starts by listing the directory, the two
      newest releases survive whether or not it succeeds, and a prune that succeeds
      leaves exactly them. */
  lemma PruneTwoOfThree(fs: FS, b: Backend, dir: Path, d: Deleter)
    requires Children(fs, dir) == {"100", "200", "300"}
    ensures var e := Prune(fs, b, dir, 2, d);
      && e.ops[0] == ReadDir(dir)
      && dir + ["200"] in e.fs && dir + ["300"] in e.fs
      && (e.status.Pass? ==> Children(e.fs, dir) == {"200", "300"})
  {
    KeepTwoOfThree();
    ChildIn(fs, dir, "200");
    ChildIn(fs, dir, "300");
    var k2, k3 := dir + ["200"], dir + ["300"];
    assert k2[|dir|] == "200" && k3[|dir|] == "300";
  }

  lemma ThreeAscending()
    ensures StrictlySorted(["100", "200", "300"])
  {
    var s := ["100", "200", "300"];
    assert Below(s[0], s[1]) && Below(s[1], s[2]) && Below(s[0], s[2]);
  }
}

=== FILE: sorting.dfy ===
/** `sort.Strings` and the retention selection built on it.
    - `Sort`: insertion sort into ascending Go string order;
    - `SortedUnique`: a sorted permutation is unique, so `Sort` agrees with any correct
      string sort, stable or not;
    - `SetToSorted`: a finite set of names as an ascending sequence (a directory listing);
    - `Retain(names, keep)`: the names with fewer than `keep` names above them -- the
      `keep` newest releases. */
module Sorting {
  import opened GoStrings

  predicate LessEq(a: string, b: string)
  {
    a == b || Below(a, b)
  }

  predicate Sorted(s: seq<string>)
  {
    forall i, j :: 0 <= i < j < |s| ==> LessEq(s[i], s[j])
  }

  predicate StrictlySorted(s: seq<string>)
  {
    forall i, j :: 0 <= i < j < |s| ==> Below(s[i], s[j])
  }

  predicate Distinct(s: seq<string>)
  {
    forall i, j :: 0 <= i < j < |s| ==> s[i] != s[j]
  }

  lemma LessEqAntisymmetric(a: string, b: string)
    ensures LessEq(a, b) && LessEq(b, a) ==> a == b
  {
    BelowAsymmetric(a, b);
  }

  lemma LessEqTransitive(a: string, b: string, c: string)
    requires LessEq(a, b) && LessEq(b, c)
    ensures LessEq(a, c)
  {
    if a != b && b != c {
      BelowTransitive(a, b, c);
    }
  }

  /** Inserts `x` into a sorted sequence, before the first element above it. */
  function Insert(x: string, s: seq<string>): (r: seq<string>)
    requires Sorted(s)
    ensures Sorted(r)
    ensures multiset(r) == multiset(s) + multiset{x}
    ensures |r| == |s| + 1
  {
    if s == [] then [x]
    else if LessEq(x, s[0]) then
      InsertFront(x, s);
      [x] + s
    else
      SortedTail(s);
      var rest := Insert(x, s[1..]);
      InsertBehind(x, s, rest);
      [s[0]] + rest
  }

  /** An element no greater than the head of a sorted sequence goes in front of it. */
  lemma InsertFront(x: string, s: seq<string>)
    requires Sorted(s) && s != [] && LessEq(x, s[0])
    ensures Sorted([x] + s)
    ensures multiset([x] + s) == multiset(s) + multiset{x}
  {
    forall j | 0 <= j < |s| ensures LessEq(x, s[j]) {
      if j > 0 {
        LessEqTransitive(x, s[0], s[j]);
      }
    }
    forall i, j | 0 <= i < j < |[x] + s| ensures LessEq(([x] + s)[i], ([x] + s)[j]) {
      if i > 0 {
        assert ([x] + s)[i] == s[i - 1];
      }
      assert ([x] + s)[j] == s[j - 1];
    }
  }

  /** An element above the head of a sorted sequence goes somewhere after it. */
  lemma InsertBehind(x: string, s: seq<string>, rest: seq<string>)
    requires Sorted(s) && s != [] && !LessEq(x, s[0])
    requires Sorted(rest) && multiset(rest) == multiset(s[1..]) + multiset{x}
    ensures Sorted([s[0]] + rest)
    ensures multiset([s[0]] + rest) == multiset(s) + multiset{x}
  {
    assert s == [s[0]] + s[1..];
    BelowTotal(x, s[0]);
    forall k | 0 <= k < |rest| ensures LessEq(s[0], rest[k]) {
      assert rest[k] in multiset(rest);
      if rest[k] != x {
        assert rest[k] in multiset(s[1..]);
        var j :| 0 <= j < |s[1..]| && s[1..][j] == rest[k];
        assert s[j + 1] == rest[k];
      }
    }
    forall i, j | 0 <= i < j < |[s[0]] + rest| ensures LessEq(([s[0]] + rest)[i], ([s[0]] + rest)[j]) {
      if i > 0 {
        assert ([s[0]] + rest)[i] == rest[i - 1];
      }
      assert ([s[0]] + rest)[j] == rest[j - 1];
    }
  }

  /** `sort.Strings`: the strings in ascending order. */
  function Sort(s: seq<string>): (r: seq<string>)
    ensures Sorted(r)
    ensures multiset(r) == multiset(s)
    ensures |r| == |s|
  {
    if s == [] then []
    else
      assert s == [s[0]] + s[1..];
      Insert(s[0], Sort(s[1..]))
  }

  /** Two sorted sequences with the same elements are equal: the sorted order of a
      collection of strings is unique. */
  lemma {:induction false} SortedUnique(a: seq<string>, b: seq<string>)
    requires Sorted(a) && Sorted(b)
    requires multiset(a) == multiset(b)
    ensures a == b
    decreases |a|
  {
    if a != [] {
      HeadsAgree(a, b);
      TailMultiset(a);
      TailMultiset(b);
      SortedTail(a);
      SortedTail(b);
      SortedUnique(a[1..], b[1..]);
      assert a == [a[0]] + a[1..] && b == [b[0]] + b[1..];
    }
  }

  /** Two sorted sequences with the same elements start with the same element. */
  lemma HeadsAgree(a: seq<string>, b: seq<string>)
    requires Sorted(a) && Sorted(b)
    requires multiset(a) == multiset(b)
    requires a != []
    ensures b != [] && a[0] == b[0]
  {
    assert a[0] in multiset(a);
    assert a[0] in multiset(b);
    assert b[0] in multiset(b);
    var i :| 0 <= i < |a| && a[i] == b[0];
    var j :| 0 <= j < |b| && b[j] == a[0];
    assert LessEq(a[0], a[i]) by { if i > 0 { } }
    assert LessEq(b[0], b[j]) by { if j > 0 { } }
    LessEqAntisymmetric(a[0], b[0]);
  }

  lemma TailMultiset(a: seq<string>)
    requires a != []
    ensures multiset(a[1..]) == multiset(a) - multiset{a[0]}
  {
    assert a == [a[0]] + a[1..];
  }

  lemma SortedTail(a: seq<string>)
    requires Sorted(a) && a != []
    ensures Sorted(a[1..])
  {
    forall i, j | 0 <= i < j < |a[1..]| ensures LessEq(a[1..][i], a[1..][j]) {
      assert a[1..][i] == a[i + 1] && a[1..][j] == a[j + 1];
    }
  }

  /** Sorting distinct strings gives a strictly ascending sequence. */
  lemma SortDistinct(s: seq<string>)
    requires Distinct(s)
    ensures StrictlySorted(Sort(s))
  {
    var r := Sort(s);
    forall i, j | 0 <= i < j < |r| ensures Below(r[i], r[j]) {
      if r[i] == r[j] {
        DistinctMultiplicity(s, r[i]);
        RepeatMultiplicity(r, i, j);
        assert false;
      }
    }
  }

  /** An element at two positions occurs at least twice. */
  lemma RepeatMultiplicity(r: seq<string>, i: int, j: int)
    requires 0 <= i < j < |r| && r[i] == r[j]
    ensures multiset(r)[r[i]] >= 2
  {
    assert r == r[..i] + [r[i]] + r[i + 1..j] + [r[j]] + r[j + 1..];
    assert multiset(r) == multiset(r[..i]) + multiset{r[i]} + multiset(r[i + 1..j]) + multiset{r[j]} + multiset(r[j + 1..]);
  }

  /** Every element of a sequence of distinct strings occurs once. */
  lemma {:induction false} DistinctMultiplicity(s: seq<string>, x: string)
    requires Distinct(s)
    ensures multiset(s)[x] <= 1
  {
    if s != [] {
      assert s == [s[0]] + s[1..];
      DistinctMultiplicity(s[1..], x);
      if s[0] == x {
        assert x !in s[1..];
      }
    }
  }

  /** The least element of a non-empty finite set of strings exists. */
  lemma {:induction false} MinExists(names: set<string>)
    requires names != {}
    ensures exists m :: m in names && forall y :: y in names ==> LessEq(m, y)
    decreases |names|
  {
    var x :| x in names;
    if names == {x} {
      assert forall y :: y in names ==> y == x;
    } else {
      MinExists(names - {x});
      var m :| m in names - {x} && forall y :: y in names - {x} ==> LessEq(m, y);
      BelowTotal(x, m);
      if Below(x, m) {
        forall y | y in names ensures LessEq(x, y) {
          if y != x {
            LessEqTransitive(x, m, y);
          }
        }
      } else {
        assert forall y :: y in names ==> LessEq(m, y);
      }
    }
  }

  /** The names of a set, ascending: how a directory listing is presented. */
  function SetToSorted(names: set<string>): (r: seq<string>)
    ensures StrictlySorted(r)
    ensures |r| == |names|
    ensures forall x :: x in r <==> x in names
    decreases |names|
  {
    if names == {} then []
    else
      MinExists(names);
      LessEqAntisymmetricAll();
      var m :| m in names && forall y :: y in names ==> LessEq(m, y);
      var rest := SetToSorted(names - {m});
      LeastFirst(names, m, rest);
      [m] + rest
  }

  lemma LessEqAntisymmetricAll()
    ensures forall a, b :: LessEq(a, b) && LessEq(b, a) ==> a == b
  {
    forall a, b ensures LessEq(a, b) && LessEq(b, a) ==> a == b {
      LessEqAntisymmetric(a, b);
    }
  }

  /** The least name, put before an ascending listing of the others, keeps it ascending. */
  lemma LeastFirst(names: set<string>, m: string, rest: seq<string>)
    requires m in names && forall y :: y in names ==> LessEq(m, y)
    requires StrictlySorted(rest) && |rest| == |names - {m}|
    requires forall x :: x in rest <==> x in names - {m}
    ensures StrictlySorted([m] + rest)
    ensures |[m] + rest| == |names|
    ensures forall x :: x in [m] + rest <==> x in names
  {
    forall k | 0 <= k < |rest| ensures Below(m, rest[k]) {
      assert rest[k] in names - {m};
    }
    assert names == (names - {m}) + {m};
    forall i, j | 0 <= i < j < |[m] + rest| ensures Below(([m] + rest)[i], ([m] + rest)[j]) {
      if i > 0 {
        assert ([m] + rest)[i] == rest[i - 1];
      }
      assert ([m] + rest)[j] == rest[j - 1];
    }
  }

  /** The names strictly above `x`. */
  function Above(names: set<string>, x: string): set<string>
  {
    set y | y in names && Below(x, y)
  }

  /** The releases a retention of `keep` preserves: those with fewer than `keep`
      names above them. */
  function Retain(names: set<string>, keep: nat): set<string>
  {
    set x | x in names && |Above(names, x)| < keep
  }

  /** The elements of a sequence. */
  function Elems(s: seq<string>): set<string>
  {
    set x | x in s
  }

  /** A sequence of distinct elements has as many elements as its set. */
  lemma {:induction false} DistinctCard(s: seq<string>)
    requires Distinct(s)
    ensures |Elems(s)| == |s|
  {
    if s != [] {
      DistinctCard(s[1..]);
      assert Elems(s) == Elems(s[1..]) + {s[0]};
      assert s[0] !in s[1..];
    }
  }

  lemma StrictlySortedDistinct(s: seq<string>)
    requires StrictlySorted(s)
    ensures Distinct(s)
  {
    forall i, j | 0 <= i < j < |s| ensures s[i] != s[j] {
      BelowIrreflexive(s[i]);
    }
  }

  /** In a strictly ascending sequence, the elements above `s[i]` are exactly those after
      position `i`, and there are `|s| - 1 - i` of them. */
  lemma AboveInSorted(s: seq<string>, i: int)
    requires StrictlySorted(s)
    requires 0 <= i < |s|
    ensures Above(Elems(s), s[i]) == Elems(s[i + 1..])
    ensures |Above(Elems(s), s[i])| == |s| - 1 - i
  {
    var names := Elems(s);
    forall y | y in Above(names, s[i]) ensures y in s[i + 1..] {
      var j :| 0 <= j < |s| && s[j] == y;
      if j <= i {
        if j == i {
          BelowIrreflexive(y);
        } else {
          BelowAsymmetric(s[j], s[i]);
        }
      }
      assert s[i + 1..][j - i - 1] == y;
    }
    forall y | y in s[i + 1..] ensures y in Above(names, s[i]) {
      var j :| 0 <= j < |s[i + 1..]| && s[i + 1..][j] == y;
      assert s[i + 1 + j] == y;
    }
    StrictlySortedDistinct(s);
    StrictlySortedDistinct(s[i + 1..]);
    DistinctCard(s[i + 1..]);
  }

  /** Retention over a strictly ascending sequence keeps exactly its last `keep`
      elements (all of them when there are no more than `keep`). */
  lemma RetainSuffix(s: seq<string>, keep: nat)
    requires StrictlySorted(s)
    ensures Retain(Elems(s), keep) == Elems(s[|s| - Min(|s|, keep)..])
  {
    var names := Elems(s);
    var cut := |s| - Min(|s|, keep);
    forall y | y in Retain(names, keep) ensures y in s[cut..] {
      var i :| 0 <= i < |s| && s[i] == y;
      AboveInSorted(s, i);
      assert s[cut..][i - cut] == y;
    }
    forall y | y in s[cut..] ensures y in Retain(names, keep) {
      var j :| 0 <= j < |s[cut..]| && s[cut..][j] == y;
      AboveInSorted(s, cut + j);
    }
  }

  /** Cutting a strictly ascending sequence: both parts stay ascending, and all of the
      front sorts below all of the back. */
  lemma SortedCut(s: seq<string>, cut: int)
    requires StrictlySorted(s) && 0 <= cut <= |s|
    ensures StrictlySorted(s[..cut])
    ensures forall v, w :: v in s[..cut] && w in Elems(s[cut..]) ==> Below(v, w)
  {
    assert forall i :: 0 <= i < cut ==> s[..cut][i] == s[i];
    forall v, w | v in s[..cut] && w in Elems(s[cut..]) ensures Below(v, w) {
      var i :| 0 <= i < cut && s[..cut][i] == v;
      var j :| 0 <= j < |s[cut..]| && s[cut..][j] == w;
      assert s[cut + j] == w;
    }
  }

  function Min(a: int, b: int): int
  {
    if a < b then a else b
  }

  /** Retention keeps `min(|names|, keep)` names. */
  lemma RetainSize(names: set<string>, keep: nat)
    ensures |Retain(names, keep)| == Min(|names|, keep)
  {
    var s := SetToSorted(names);
    assert Elems(s) == names;
    RetainSuffix(s, keep);
    var cut := |s| - Min(|s|, keep);
    StrictlySortedDistinct(s);
    assert StrictlySorted(s[cut..]);
    StrictlySortedDistinct(s[cut..]);
    DistinctCard(s[cut..]);
  }

  /** A second retention with the same count keeps everything: retention is idempotent. */
  lemma RetainIdempotent(names: set<string>, keep: nat)
    ensures Retain(Retain(names, keep), keep) == Retain(names, keep)
  {
    var kept := Retain(names, keep);
    forall x | x in kept ensures |Above(kept, x)| < keep {
      assert Above(kept, x) <= Above(names, x);
      SubsetCard(Above(kept, x), Above(names, x));
    }
  }

  /** Adding a name above all the others and retaining `keep` keeps the new name and
      the `keep - 1` newest of the others. */
  lemma RetainNewest(names: set<string>, x: string, keep: nat)
    requires keep >= 1
    requires forall n :: n in names ==> Below(n, x)
    ensures Retain(names + {x}, keep) == {x} + Retain(names, keep - 1)
  {
    var all := names + {x};
    BelowIrreflexive(x);
    assert x !in names;
    forall y | y in all ensures !Below(x, y) {
      if y in names {
        BelowAsymmetric(y, x);
      }
    }
    assert Above(all, x) == {};
    forall y | y in names ensures |Above(all, y)| == |Above(names, y)| + 1 {
      assert Above(all, y) == Above(names, y) + {x};
    }
  }

  lemma SubsetCard<T>(a: set<T>, b: set<T>)
    requires a <= b
    ensures |a| <= |b|
  {
    assert b == a + (b - a);
  }
}

=== FILE: strings.dfy ===
/** The parts of Go's `strings` and `sort` packages that the deploy engine relies on,
    over `string` = `seq<char>`:
    - `Split(s, sep)`: `strings.Split` with a one-character separator;
    - `Join(parts, sep)`: `strings.Join`;
    - `Below(a, b)`: Go's `a < b` on strings (comparison of code points, which agrees
      with Go's byte-wise comparison of the UTF-8 encodings);
    - `Decimal(n)`: `fmt.Sprintf("%d", n)` for a non-negative `n`. */
module GoStrings {

  /** `strings.Split(s, string(sep))`: the pieces of `s` between occurrences of `sep`.
      n separators give n + 1 pieces, and an empty `s` gives one empty piece. */
  function Split(s: string, sep: char): (parts: seq<string>)
    ensures |parts| >= 1
    ensures forall i :: 0 <= i < |parts| ==> sep !in parts[i]
  {
    if s == [] then [""]
    else
      var rest := Split(s[1..], sep);
      if s[0] == sep then [""] + rest
      else [[s[0]] + rest[0]] + rest[1..]
  }

  /** n separators give n + 1 pieces. */
  lemma {:induction false} SplitCount(s: string, sep: char)
    ensures |Split(s, sep)| == multiset(s)[sep] + 1
  {
    if s != [] {
      assert s == [s[0]] + s[1..];
      SplitCount(s[1..], sep);
    }
  }

  /** `strings.Join(parts, string(sep))`. */
  function Join(parts: seq<string>, sep: char): string
  {
    if |parts| == 0 then ""
    else if |parts| == 1 then parts[0]
    else parts[0] + [sep] + Join(parts[1..], sep)
  }

  /** Joining the pieces of a split gives back the original string. */
  lemma {:induction false} JoinSplit(s: string, sep: char)
    ensures Join(Split(s, sep), sep) == s
  {
    if s != [] {
      JoinSplit(s[1..], sep);
      var rest := Split(s[1..], sep);
      if s[0] != sep {
        if |rest| > 1 {
          assert Join(rest, sep) == rest[0] + [sep] + Join(rest[1..], sep);
          assert [[s[0]] + rest[0]] + rest[1..] == [[s[0]] + rest[0]] + rest[1..];
          assert ([[s[0]] + rest[0]] + rest[1..])[1..] == rest[1..];
        }
      } else {
        assert ([""] + rest)[1..] == rest;
      }
    }
  }

  /** Splitting a join of separator-free pieces gives back the pieces. */
  lemma {:induction false} SplitJoin(parts: seq<string>, sep: char)
    requires |parts| >= 1
    requires forall i :: 0 <= i < |parts| ==> sep !in parts[i]
    ensures Split(Join(parts, sep), sep) == parts
  {
    if |parts| == 1 {
      SplitSepFree(parts[0], sep);
    } else {
      SplitJoin(parts[1..], sep);
      SplitPrefix(parts[0], Join(parts[1..], sep), sep);
      assert Join(parts, sep) == parts[0] + [sep] + Join(parts[1..], sep);
      assert [parts[0]] + parts[1..] == parts;
    }
  }

  /** A string without the separator splits into itself. */
  lemma {:induction false} SplitSepFree(s: string, sep: char)
    requires sep !in s
    ensures Split(s, sep) == [s]
  {
    if s != [] {
      assert sep !in s[1..] by {
        forall i | 0 <= i < |s[1..]| ensures s[1..][i] != sep {
          assert s[1..][i] == s[i + 1];
        }
      }
      SplitSepFree(s[1..], sep);
      assert [s[0]] + s[1..] == s;
    }
  }

  /** Splitting `a + [sep] + t` where `a` is separator-free puts `a` first. */
  lemma {:induction false} SplitPrefix(a: string, t: string, sep: char)
    requires sep !in a
    ensures Split(a + [sep] + t, sep) == [a] + Split(t, sep)
  {
    var s := a + [sep] + t;
    if a == [] {
      assert s[0] == sep;
      assert s[1..] == t;
    } else {
      assert s[0] == a[0];
      assert s[1..] == a[1..] + [sep] + t;
      assert sep !in a[1..] by {
        forall i | 0 <= i < |a[1..]| ensures a[1..][i] != sep {
          assert a[1..][i] == a[i + 1];
        }
      }
      SplitPrefix(a[1..], t, sep);
      assert [a[0]] + a[1..] == a;
    }
  }

  /** Go's `a < b` on strings: lexicographic order, a proper prefix coming first. */
  predicate Below(a: string, b: string)
    decreases |a|
  {
    if |a| == 0 then |b| > 0
    else if |b| == 0 then false
    else a[0] < b[0] || (a[0] == b[0] && Below(a[1..], b[1..]))
  }

  lemma {:induction false} BelowIrreflexive(a: string)
    ensures !Below(a, a)
  {
    if |a| > 0 {
      BelowIrreflexive(a[1..]);
    }
  }

  lemma {:induction false} BelowAsymmetric(a: string, b: string)
    ensures Below(a, b) ==> !Below(b, a)
  {
    if |a| > 0 && |b| > 0 {
      BelowAsymmetric(a[1..], b[1..]);
    }
  }

  lemma {:induction false} BelowTransitive(a: string, b: string, c: string)
    requires Below(a, b) && Below(b, c)
    ensures Below(a, c)
  {
    if |a| > 0 && a[0] == b[0] && b[0] == c[0] {
      BelowTransitive(a[1..], b[1..], c[1..]);
    }
  }

  lemma {:induction false} BelowTotal(a: string, b: string)
    ensures a == b || Below(a, b) || Below(b, a)
  {
    if |a| > 0 && |b| > 0 && a[0] == b[0] {
      BelowTotal(a[1..], b[1..]);
      if a[1..] == b[1..] {
        assert a == [a[0]] + a[1..] && b == [b[0]] + b[1..];
      }
    }
  }

  /** A common prefix does not change the order of two strings: this is why sorting the
      joined paths `dir/name` orders the entries exactly as sorting their names would. */
  lemma {:induction false} BelowCommonPrefix(p: string, a: string, b: string)
    ensures Below(p + a, p + b) <==> Below(a, b)
  {
    if |p| > 0 {
      assert (p + a)[1..] == p[1..] + a;
      assert (p + b)[1..] == p[1..] + b;
      BelowCommonPrefix(p[1..], a, b);
    } else {
      assert p + a == a && p + b == b;
    }
  }

  /** The character of a decimal digit. */
  function DigitChar(d: nat): char
    requires d < 10
  {
    "0123456789"[d]
  }

  /** `fmt.Sprintf("%d", n)` for `n >= 0`: most significant digit first, no leading zero. */
  function Decimal(n: nat): (r: string)
    decreases n
  {
    if n < 10 then [DigitChar(n)] else Decimal(n / 10) + [DigitChar(n % 10)]
  }

  /** The value of a string of decimal digits (the inverse of `Decimal`). */
  function DigitValue(c: char): nat
  {
    if '0' <= c <= '9' then (c as int - '0' as int) as nat else 0
  }

  function DecimalValue(s: string): nat
  {
    if s == [] then 0 else DecimalValue(s[..|s| - 1]) * 10 + DigitValue(s[|s| - 1])
  }

  /** Rendering then reading back a number gives the number. */
  lemma {:induction false} DecimalRoundTrip(n: nat)
    ensures DecimalValue(Decimal(n)) == n
  {
    if n >= 10 {
      DecimalRoundTrip(n / 10);
      var s := Decimal(n);
      assert s[..|s| - 1] == Decimal(n / 10);
    }
  }

  lemma {:induction false} DecimalLength(n: nat)
    ensures (n < 10) == (|Decimal(n)| == 1)
  {
  }

  /** Order of two strings that share an equal-length prefix. */
  lemma {:induction false} BelowSnoc(x: string, y: string, c: char, e: char)
    requires |x| == |y|
    ensures Below(x + [c], y + [e]) <==> Below(x, y) || (x == y && c < e)
    decreases |x|
  {
    if |x| == 0 {
      assert (x + [c])[1..] == [] && (y + [e])[1..] == [];
    } else {
      assert (x + [c])[1..] == x[1..] + [c];
      assert (y + [e])[1..] == y[1..] + [e];
      BelowSnoc(x[1..], y[1..], c, e);
      if x[0] == y[0] && x[1..] == y[1..] {
        assert x == [x[0]] + x[1..] && y == [y[0]] + y[1..];
      }
      if x == y {
        BelowIrreflexive(x);
      }
    }
  }

  /** Release identifiers of the SAME width order by string comparison exactly as the
      times they render do. */
  lemma {:induction false} DecimalOrder(a: nat, b: nat)
    requires |Decimal(a)| == |Decimal(b)|
    ensures Below(Decimal(a), Decimal(b)) <==> a < b
    ensures Decimal(a) == Decimal(b) <==> a == b
    decreases a
  {
    if a < 10 || b < 10 {
      DecimalLength(a);
      DecimalLength(b);
      assert a < 10 && b < 10;
      var s := "0123456789";
      assert Decimal(a) == [s[a]] && Decimal(b) == [s[b]];
      assert Below(Decimal(a), Decimal(b)) <==> s[a] < s[b];
    } else {
      DecimalOrder(a / 10, b / 10);
      var s := "0123456789";
      assert DigitChar(a % 10) < DigitChar(b % 10) <==> a % 10 < b % 10;
      BelowSnoc(Decimal(a / 10), Decimal(b / 10), DigitChar(a % 10), DigitChar(b % 10));
      if Decimal(a) == Decimal(b) {
        assert Decimal(a)[..|Decimal(a)| - 1] == Decimal(a / 10);
        assert Decimal(b)[..|Decimal(b)| - 1] == Decimal(b / 10);
        assert DigitChar(a % 10) == DigitChar(b % 10);
      }
    }
  }

  /** Once the width changes the string order no longer follows the time order:
      "10" sorts before "9". */
  lemma WidthChangeBreaksOrder()
    ensures 9 < 10 && Below(Decimal(10), Decimal(9))
  {
    assert Decimal(10) == "10";
    assert Decimal(9) == "9";
  }
}
